=== FILE: README.md ===
# Vuforia sample AppController — a Dafny model

This project models the cross-platform core of a Vuforia Engine sample app:
the `AppController` class that drives the AR session, and the linear-algebra
contracts of the `MathUtils` header that its per-frame transforms are built
from.

The controller is modelled as an immutable `Session` record with pure
transition functions. Every call into the engine or the camera becomes an
input to the model: a success flag, or, for engine initialisation, the
sequence of progress values the engine would answer when polled. Callbacks
and surface notifications are returned as lists. The parts are:

- `Wrappers` (`wrappers.dfy`): `Option`.
- `MathUtils` (`math_utils.dfy`): 3-D vectors and 4×4 matrices over `real`.
  Entry `m[i][j]` is row `i`, column `j`, at index `4i+j` of the header's row
  storage. Translation sits in column 3, and a point transforms as `m * (v, 1)`.
  Scaling and translating "by post-multiplication" are defined column-wise.
  Lemmas prove that they equal `m * S(s)` and `m * T(t)`. The in-place
  methods compute them with loops.
- `VideoBackground` (`video_background.dfy`): `configureVideoBackground`
  over integer sizes. The float comparison `a/b < c/d` of positive sizes is
  written `a*d < c*b`. `int(a * (b / c))` is written `(a*b)/c`.
- `AppTypes` (`app_types.dfy`): the session fields, target selectors and
  dataset names, and the frame's trackable results. Results are tagged as
  image target, model target or other, each with status, status info and pose.
- `Lifecycle` (`lifecycle.dfy`): `initAR` (with `initVuforiaInternal`,
  `initTrackers`, `loadTrackerData`, `loadAndActivateDataSet`), `startAR`,
  `pauseAR`, `resumeAR`, `stopAR`, `deinitAR` (with `unloadTrackerData`) and
  `configureRendering`. It also has a command runner and the invariant
  "camera active implies camera started" over any run.
- `TrackingResults` (`tracking_results.dfy`): `getOrigin`,
  `getImageTargetResult` and `getModelTargetResult`, including the
  guide-view candidate the model-target scan records or clears.
- `GuideView` (`guide_view.dfy`): `getModelTargetGuideView`, the four-way
  fit of the guide-view image to the near plane.

`Matrix44FInverse` and `tanf` are not modelled; they are passed in as the
function parameters `inverse` and `tan`.

Facts about the code that the model records:

- The video fit gives 1440×1920 for a portrait 1080×1920 view with a
  640×480 camera: the width is scaled up, and the height matches the view
  (`VideoBackground.PortraitPhoneExample`).
- A second `initAR` is not rejected up front. It resets the flags and runs
  again. The dataset step is reached only if both trackers are created
  again; the code expects the device-tracker creation to fail when it may
  have been initialised already (AppController.cpp:690). If it is reached
  with a dataset still loaded, it fails with the "already loaded" error
  (`Lifecycle.SecondInitFailsOnLoadedDataSet`).
- `deinitAR` leaves both camera flags as they are. It forgets the dataset
  only when the object tracker can still be found.

## Model

| member | source | states |
|---|---|---|
| AppTypes.Initial | CrossPlatform/AppController.h:172-199 | the constructed controller selects image targets and has both camera flags false, so "active implies started" holds initially |
| AppTypes.TargetSelectors | CrossPlatform/AppController.h:39-40 | the two selectors differ; the default is the image selector, with no dataset, no guide-view candidate and the one-time flag clear |
| Lifecycle.FirstTerminalIndex | CrossPlatform/AppController.cpp:580-584 | the polling loop stops at the first answer that is negative or at least 100 |
| Lifecycle.InitVuforiaInternal | CrossPlatform/AppController.cpp:578-637 | polls until the first terminal answer; succeeds iff it is exactly 100; otherwise reports exactly one error, with that code's message |
| Lifecycle.InitErrorMessagesAreDistinct | CrossPlatform/AppController.cpp:594-633 | each listed engine error code has its own message, different from every other listed code's and from the default; unlisted codes get the default |
| Lifecycle.LoadAndActivateDataSet | CrossPlatform/AppController.cpp:945-987 | a dataset results iff the object tracker exists and create, load and activate all succeed; it is the one for the requested path |
| Lifecycle.DataSetPath | CrossPlatform/AppController.cpp:715-732 | the image selector loads the image dataset; the model selector loads the model dataset |
| Lifecycle.InitTrackers | CrossPlatform/AppController.cpp:682-704 | tracker initialisation fails iff the device tracker or the object tracker cannot be created; the device tracker is tried first, and each failure has its own message |
| Lifecycle.LoadTrackerData | CrossPlatform/AppController.cpp:707-735 | refuses with the "already loaded" error when a dataset is loaded; otherwise succeeds iff the dataset loads, recording it; a failed load reports the selected target's dataset error; each failure reports one error and leaves the state as it was |
| Lifecycle.InitAR | CrossPlatform/AppController.cpp:67-96 | resets selector, camera flags, one-time flag and guide candidate; runs init, trackers and dataset in order, and the one error reported is that of the first step that fails; exactly one callback, init-done iff all succeed; the dataset changes only on success |
| Lifecycle.StartAR | CrossPlatform/AppController.cpp:99-147 | refused silently when started or active; otherwise succeeds iff camera init, mode select, tracker start and camera start all succeed, setting both flags; the steps are checked in that order and a failure reports that step's message ("Failed to initialize the camera", "Failed to set the camera mode", "Failed to start trackers", "Failed to start the camera") and changes nothing |
| Lifecycle.AutofocusIsNotFatal | CrossPlatform/AppController.cpp:137-141 | the autofocus outcome never changes startAR's result |
| Lifecycle.PauseAR | CrossPlatform/AppController.cpp:150-179 | clears only the "active" flag; "started" and everything else stay as they were |
| Lifecycle.ResumeAR | CrossPlatform/AppController.cpp:182-221 | active afterwards iff it was active, or was started and both camera calls succeed; never changes "started"; refreshes rendering primitives iff started |
| Lifecycle.StopAR | CrossPlatform/AppController.cpp:224-238 | always ends with both camera flags false and changes nothing else |
| Lifecycle.DeinitAR | CrossPlatform/AppController.cpp:241-255 | the dataset is gone afterwards iff the object tracker is present or none was loaded; nothing else changes |
| Lifecycle.ConfigureRendering | CrossPlatform/AppController.cpp:276-309 | refused with no effect before the camera is started; otherwise records orientation, aspect ratio and video fit; sends exactly "surface created" then "surface changed" while the one-time flag is clear, and only "surface changed" once it is set; "surface changed" carries the same two sizes, short side first in portrait and long side first in landscape |
| Lifecycle.SurfaceCreatedOnlyOnce | CrossPlatform/AppController.cpp:288-293 | after one successful configuration, later calls never send "surface created" |
| Lifecycle.RunKeepsCameraFlagsConsistent | CrossPlatform/AppController.h:179-183 | "active implies started" survives any sequence of lifecycle calls |
| Lifecycle.ReachableStatesAreConsistent | CrossPlatform/AppController.h:179-183 | every state reachable from the constructed controller has "active implies started" |
| Lifecycle.PauseThenResume | CrossPlatform/AppController.cpp:150-221 | a paused camera still counts as started, and a successful resume makes it active again |
| Lifecycle.StartedWhileCameraStopped | CrossPlatform/AppController.h:92 | after init, start and pause, isCameraStarted is true while the camera is not running |
| Lifecycle.SecondInitFailsOnLoadedDataSet | CrossPlatform/AppController.cpp:67-96 | a second initAR with a dataset still loaded fails with the "already loaded" error and keeps that dataset |
| VideoBackground.ConfigureVideoBackground | CrossPlatform/AppController.cpp:822-942 | in each of the four branches one side equals the view's side, the other is at least the view's, and the truncated side brackets the camera's aspect ratio |
| VideoBackground.FitCoversView | CrossPlatform/AppController.cpp:838-935 | the fitted video always covers the view: no letterboxing |
| VideoBackground.EqualAspectFitsExactly | CrossPlatform/AppController.cpp:845-935 | equal aspect ratios take the `else` branch and fit the view exactly |
| VideoBackground.PortraitPhoneExample | CrossPlatform/AppController.cpp:845-865 | a portrait 1080×1920 view with a 640×480 camera gives 1440×1920 |
| VideoBackground.LandscapePhoneExample | CrossPlatform/AppController.cpp:902-919 | a landscape 1920×1080 view with a 640×480 camera gives 1920×1440 |
| TrackingResults.ViewMatrix | CrossPlatform/AppController.cpp:359-360 | the view matrix is the transpose of the inverted device pose |
| TrackingResults.GetOrigin | CrossPlatform/AppController.cpp:350-372 | available iff the device result exists, is tracked and in normal condition; gives the frame projection and the view matrix |
| TrackingResults.FirstImageResult | CrossPlatform/AppController.cpp:380-383 | finds the first image-target result, whatever its status |
| TrackingResults.ImageBoxSize | CrossPlatform/AppController.cpp:402-406 | the box keeps the target's width and height, with the larger of the two as depth |
| TrackingResults.GetImageTargetResult | CrossPlatform/AppController.cpp:375-414 | succeeds iff image targets are selected and some image result exists; the first one gives model-view = view × pose, scaled by the box size |
| TrackingResults.ImageTargetRelativeToOrigin | CrossPlatform/AppController.cpp:359-399 | when the origin and an image target are both available, the target's model-view is the origin's model-view times the target's pose, under the same projection |
| TrackingResults.ScanModelResults | CrossPlatform/AppController.cpp:422-437 | the scan stops at the first model-target result with a pose, and only if there is one |
| TrackingResults.ScanKeepsLastGuidance | CrossPlatform/AppController.cpp:430-436 | a scan that finds no pose leaves the last guidance result's target as candidate, or the previous candidate if there was none |
| TrackingResults.ModelTransforms | CrossPlatform/AppController.cpp:451-467 | the scaled model-view is the model-view translated to the bounding-box centre and then scaled to the target size |
| TrackingResults.GetModelTargetResult | CrossPlatform/AppController.cpp:417-475 | succeeds iff model targets are selected and some model result has a pose; on success the candidate is cleared and the first posed result gives the transforms; otherwise only the candidate changes |
| GuideView.GuidePlaneSize | CrossPlatform/AppController.cpp:502-540 | in all four cases the plane keeps the guide view's aspect ratio, and its long side equals the near plane's long side |
| GuideView.GuidePlaneSizeIsUnique | CrossPlatform/AppController.cpp:502-540 | the plane size is the only positive size with those two properties |
| GuideView.FitIsUnique | CrossPlatform/AppController.cpp:502-540 | two planes with one aspect ratio whose long sides both match the near plane's are the same plane, so the four cases cannot disagree |
| GuideView.GetModelTargetGuideView | CrossPlatform/AppController.cpp:478-555 | draws iff there is a candidate with at least one guide view and a calibration; draws its first guide view with identity projection and a scaling of x and y only |
| GuideView.GuideViewFor | CrossPlatform/AppController.cpp:497-549 | projection is the identity; the model-view is the scaling of the identity by the guide scale, with its diagonal holding the x and y factors |
| GuideView.GuideScale | CrossPlatform/AppController.cpp:542-545 | on screen the drawn guide view keeps its proportions and its long side is as long as the view's long side; when one is landscape and the other portrait, that side lies across the view's short side and reaches past it, or exactly across it on a square display |
| GuideView.MixedOrientationOverflows | CrossPlatform/AppController.cpp:527-543 | a landscape guide view (ratio 1.5) on a portrait display (ratio 0.5) is scaled by (4, 4/3): twice the view's width |
| GuideView.LandscapeGuideFillsWidth | CrossPlatform/AppController.cpp:512-543 | with guide view and display both landscape, x is scaled by exactly 2 |
| GuideView.PortraitGuideFillsHeight | CrossPlatform/AppController.cpp:520-543 | with guide view and display both portrait, y is scaled by exactly 2 |
| GuideView.PosedModelHidesGuideView | CrossPlatform/AppController.cpp:438-440 | in a frame where a model target has a pose, no guide view is drawn afterwards |
| GuideView.GuidanceShowsGuideView | CrossPlatform/AppController.cpp:430-435 | a lone guidance result makes its target the candidate, and its first guide view is drawn |
| MathUtils.SubIsAddOpposite | CrossPlatform/MathUtils.h:56-63 | v1 − v2 is v1 plus the opposite of v2 |
| MathUtils.OppositeIsInverse | CrossPlatform/MathUtils.h:56-60 | a vector plus its opposite is zero, and the opposite of the opposite is the vector |
| MathUtils.CrossIsOrthogonal | CrossPlatform/MathUtils.h:71-75 | the cross product is orthogonal to both operands |
| MathUtils.CrossIsAntiCommutative | CrossPlatform/MathUtils.h:74-75 | swapping the operands of the cross product negates it |
| MathUtils.TransposeSwapsIndices | CrossPlatform/MathUtils.h:124-125 | transposition swaps row and column indices |
| MathUtils.TransposeIsInvolution | CrossPlatform/MathUtils.h:124-125 | transposing twice gives the matrix back |
| MathUtils.TransposeOfProduct | CrossPlatform/MathUtils.h:124-125 | the transpose of a product is the product of the transposes in reverse order |
| MathUtils.IdentityIsLeftUnit | CrossPlatform/MathUtils.h:121-122 | the identity is a left unit of multiplication |
| MathUtils.IdentityIsRightUnit | CrossPlatform/MathUtils.h:121-122 | the identity is a right unit of multiplication |
| MathUtils.ScaleIsPostMultiply | CrossPlatform/MathUtils.h:140-141 | scaling a matrix equals post-multiplying it by the scaling matrix |
| MathUtils.TranslateIsPostMultiply | CrossPlatform/MathUtils.h:133-134 | translating a matrix equals post-multiplying it by the translation matrix |
| MathUtils.TranslateThenScale | CrossPlatform/MathUtils.h:133-141 | m × (T(c) × S(s)) is m translated by c, then scaled by s |
| MathUtils.ScaleOfIdentity | CrossPlatform/MathUtils.h:140-141 | scaling the identity gives the scaling matrix |
| MathUtils.TransformNormalIgnoresTranslation | CrossPlatform/MathUtils.h:86-87 | transforming a normal by a pure translation leaves it unchanged |
| MathUtils.TransformTranslatesPoints | CrossPlatform/MathUtils.h:80-81 | transforming a point by a translation matrix adds the translation |
| MathUtils.TransformNormalIsLinear | CrossPlatform/MathUtils.h:86-87 | transforming normals distributes over vector addition |
| MathUtils.ScaleMatrix | CrossPlatform/MathUtils.h:200-201 | the in-place scaling computes M × S(s) |
| MathUtils.TranslateMatrix | CrossPlatform/MathUtils.h:193-194 | the in-place translation computes M × T(t) |

## Left out

- All engine and SDK objects are not modelled. This covers the camera device, tracker manager, datasets, state, rendering primitives and the pose and projection conversion tools. Their answers are inputs, and poses and the projection matrix arrive as matrices.
- `setVuforiaOrientation`: platform-specific, and it changes no controller state.
- `prepareToRender` and `finishRender`: engine rendering plumbing.
- `cameraPerformAutoFocus` and `cameraRestoreAutoFocus`: they only forward a focus mode to the camera.
- `updateRenderingPrimitives`: reduced to the flag `hasRenderingPrimitives`.
- Tracker start and stop state inside `startAR`, `pauseAR`, `stopAR` and `resumeAR`: the engine keeps it, not the controller. The result of `startTrackers` is the input `objectTrackerPresent`.
- The engine init flags `mVuforiaInitFlags`: only `initVuforiaInternal` uses them, handing them to the engine (AppController.cpp:565, 572), and they affect no other controller state. The camera mode is fixed at the default (AppController.h:178) and is only handed to the camera by `startAR` (AppController.cpp:115); the model keeps only whether that call succeeds. `configureRendering` reads the camera's current video size, which the model takes as an input.
- Log messages, and the `pauseAR`/`resumeAR` camera error strings that are only logged.
- `MathUtils` inverse, determinant, perspective, orthographic, look-at, rotation, normalisation, norms and distances, scissor rectangles and printing. The controller uses only the inverse, which is passed in as `inverse`; the rest need trigonometry or square roots.
- Floating-point rounding: sizes are integers and matrix entries are reals. Division by zero in float arithmetic is not modelled, so the members below require positive sizes.
- The JNI wrapper, the GLES renderer and utilities, and the Kotlin activities: platform glue, shaders and UI.
- Lifecycle.InitAR: requires the engine's answers to reach a terminal progress value. A polling loop that never ends has no result to model.
- Lifecycle.InitVuforiaInternal: requires the engine's answers to reach a terminal progress value. The polling loop at AppController.cpp:580-584 has no time-out, so an engine that never answers a terminal value blocks `initAR` forever; that case has no result to model.
- Lifecycle.ConfigureRendering: requires positive view sizes and a valid camera mode once the camera is started. The source divides by them in float.
- VideoBackground.ConfigureVideoBackground: requires positive view and camera sizes, for the same reason.
- TrackingResults.GetImageTargetResult: requires a device result whenever an image result will be used. The source reads the device pose without a null check.
- TrackingResults.GetModelTargetResult: requires a device result whenever a posed model result will be used, for the same reason.
- GuideView.GetModelTargetGuideView: requires a positive guide-image size, display aspect ratio and near-plane height whenever a guide view is drawn. In the source these feed float divisions.
- The numeric values of the engine's init error codes come from the Vuforia SDK headers, which are not modelled. The model uses −1 to −9, and only their distinctness matters.
- `multiplyMatrix(mA, mB, mC)` is modelled by the pure product `Multiply`. The source calls it with `mC` the same matrix as `mB` (AppController.cpp:399, 453, 467); the model assumes the call gives the product of the inputs' values from before the call even then, which MathUtils.h:203 does not promise.
- `Vec3FScale` and the 2-D and 4-D vector operations of `MathUtils`: the controller calls no vector operation; only the 3-D ones with stated algebraic laws are modelled.
- Concurrency: the model treats every controller call as atomic and the calls as running one at a time (`Lifecycle.Run` applies one command after another). The Android activity runs `initAR` on a background coroutine (VuforiaActivity.kt:200-201) while the GL thread calls `configureRendering` and `renderFrame` (VuforiaActivity.kt:247-258), with no lock; both write `mDoneOneTimeRenderingConfiguration` and `mGuideViewModelTarget`. `Lifecycle.RunKeepsCameraFlagsConsistent` holds only for calls that do not overlap.
- The row-major `float data[16]` storage of `Matrix44F` (MathUtils.h:18): the model works on the four rows directly, and nothing in the controller reads the array by index.

=== FILE: app_types.dfy ===
/**
  The state the AppController keeps between calls, and the per-frame values
  the tracking engine hands it. Engine objects the controller only points at
  (datasets, targets, guide-view images) are modelled by the values it reads
  from them.
*/
module AppTypes {
  import opened Wrappers
  import opened MathUtils
  import opened VideoBackground

  /** The two target selectors accepted by initAR. */
  const IMAGE_TARGET_ID: int := 0
  const MODEL_TARGET_ID: int := 1

  /** Dataset files chosen by the target selector. */
  const IMAGE_TARGET_DATASET: string := "StonesAndChips.xml"
  const MODEL_TARGET_DATASET: string := "VuforiaMars_ModelTarget.xml"

  /** A loaded and activated dataset, known by the file it was loaded from. */
  datatype DataSet = DataSet(path: string)

  /** The image of a guide view, known by its pixel size. */
  datatype GuideViewImage = GuideViewImage(width: int, height: int)

  /** An image target's definition: its physical size (depth 0 when planar). */
  datatype ImageTarget = ImageTarget(name: string, size: Vec3)

  /**
    A model target's definition: its physical size, the centre of its bounding
    box and the images of its guide views, in the engine's order.
  */
  datatype ModelTarget = ModelTarget(name: string, size: Vec3, boundingBoxCenter: Vec3, guideViews: seq<GuideViewImage>)

  datatype Status = NoPose | Limited | Tracked | ExtendedTracked

  datatype StatusInfo =
    | Normal
    | NotObserved
    | Initializing
    | Relocalizing
    | ExcessiveMotion
    | InsufficientFeatures
    | InsufficientLight
    | NoDetectionRecommendingGuidance
    | WrongScale
    | UnknownInfo

  /**
    One entry of the frame's trackable-result list, tagged by the kind of
    trackable that produced it. `pose` is the pose already converted to a
    4x4 matrix.
  */
  datatype TrackableResult =
    | ImageTargetResult(status: Status, statusInfo: StatusInfo, pose: Matrix44, imageTarget: ImageTarget)
    | ModelTargetResult(status: Status, statusInfo: StatusInfo, pose: Matrix44, modelTarget: ModelTarget)
    | OtherResult(status: Status, statusInfo: StatusInfo, pose: Matrix44)

  /** The device (world-origin) result reported by the positional tracker. */
  datatype DeviceResult = DeviceResult(status: Status, statusInfo: StatusInfo, pose: Matrix44)

  /** The camera calibration, reduced to the vertical field of view in radians. */
  datatype CameraCalibration = CameraCalibration(fieldOfViewY: real)

  /**
    The engine state read once per frame: the trackable results, the device
    result if any, the camera calibration if any, and the projection matrix
    the rendering primitives give for that calibration.
  */
  datatype FrameState = FrameState(
    results: seq<TrackableResult>,
    device: Option<DeviceResult>,
    calibration: Option<CameraCalibration>,
    projection: Matrix44)

  /** The controller's state between calls. */
  datatype Session = Session(
    target: int,
    orientation: int,
    cameraIsActive: bool,
    cameraIsStarted: bool,
    doneOneTimeRenderingConfiguration: bool,
    displayAspectRatio: real,
    hasRenderingPrimitives: bool,
    videoBackground: Option<FitSize>,
    currentDataSet: Option<DataSet>,
    guideViewModelTarget: Option<ModelTarget>)

  /** A call of the error callback or of the init-done callback. */
  datatype Callback = ShowError(message: string) | InitDone

  /** A surface notification sent to the engine. */
  datatype SurfaceEvent = SurfaceCreated | SurfaceChanged(width: int, height: int)

  /**
    The controller as constructed. The display aspect ratio has no initial
    value in the source; 0.0 stands for "not yet configured".
  */
  function Initial(): (s: Session)
    ensures CameraFlagsConsistent(s)
    ensures s.target == IMAGE_TARGET_ID && !IsCameraStarted(s)
  {
    Session(IMAGE_TARGET_ID, 0, false, false, false, 0.0, false, None, None, None)
  }

  /** The camera can only be running if it has been started. */
  predicate CameraFlagsConsistent(s: Session) {
    s.cameraIsActive ==> s.cameraIsStarted
  }

  /** isCameraStarted: true once started, including while paused. */
  predicate IsCameraStarted(s: Session) {
    s.cameraIsStarted
  }

  /** isScreenPortrait: orientations 0 and 1 are the two portrait ones. */
  predicate IsScreenPortrait(orientation: int) {
    orientation == 0 || orientation == 1
  }

  /** The target selectors are distinct, and the default selects image targets. */
  lemma TargetSelectors()
    ensures IMAGE_TARGET_ID != MODEL_TARGET_ID
    ensures Initial().target == IMAGE_TARGET_ID
    ensures Initial().currentDataSet.None? && Initial().guideViewModelTarget.None?
    ensures !Initial().cameraIsActive && !Initial().doneOneTimeRenderingConfiguration
  {
  }
}

=== FILE: guide_view.dfy ===
/**
  getModelTargetGuideView: how the first guide view of the model target that
  asked for guidance is drawn over the camera image.

  The guide-view image is drawn on a plane at the camera's near plane. It
  keeps its own aspect ratio and its long side is matched to the long side of
  the camera view; the plane's size is then expressed in normalised view
  space as a scaling of the identity. The tangent is a collaborator whose
  implementation is not part of this model: it is passed in as `tan`.
*/
module GuideView {
  import opened Wrappers
  import opened MathUtils
  import opened AppTypes
  import opened TrackingResults

  /** Distance from the camera to the plane the guide view is drawn on. */
  const PLANE_DISTANCE: real := 0.01

  /** What is drawn: the two matrices and the guide-view image. */
  datatype GuideViewRender = GuideViewRender(projection: Matrix44, modelView: Matrix44, image: GuideViewImage)

  /** The width-to-height ratio of an image. */
  function AspectRatio(image: GuideViewImage): real
    requires image.height > 0
  {
    image.width as real / image.height as real
  }

  /** The height of the camera's near plane, at PLANE_DISTANCE, for a vertical field of view. */
  function NearPlaneHeight(tan: real -> real, fieldOfViewY: real): real {
    1.0 * PLANE_DISTANCE * tan(fieldOfViewY * 0.5)
  }

  function Max(a: real, b: real): real {
    if a < b then b else a
  }

  /** The four cases of the source: guide view and display each landscape (ratio >= 1) or portrait. */
  predicate IsLandscape(aspectRatio: real) {
    aspectRatio >= 1.0
  }

  /**
    A plane of size p = (width, height) fits the near plane of size
    nearPlaneWidth x nearPlaneHeight when it has aspect ratio g and its long
    side is as long as the near plane's long side.
  */
  predicate FitsNearPlane(p: (real, real), g: real, nearPlaneWidth: real, nearPlaneHeight: real) {
    && p.0 > 0.0 && p.1 > 0.0
    && p.0 == p.1 * g
    && Max(p.0, p.1) == Max(nearPlaneWidth, nearPlaneHeight)
  }

  /**
    The size of the plane the guide view is drawn on, as (width, height),
    given the guide view's aspect ratio, the display's aspect ratio and the
    near plane's height: it has the guide view's proportions and its long
    side is as long as the near plane's long side.
  */
  function GuidePlaneSize(guideAspect: real, displayAspect: real, nearPlaneHeight: real): (p: (real, real))
    requires guideAspect > 0.0 && displayAspect > 0.0 && nearPlaneHeight > 0.0
    ensures FitsNearPlane(p, guideAspect, nearPlaneHeight * displayAspect, nearPlaneHeight)
  {
    var nearPlaneWidth := nearPlaneHeight * displayAspect;
    if IsLandscape(guideAspect) && IsLandscape(displayAspect) then
      // the camera's long side is its width; the guide view's is its width
      Grows(nearPlaneHeight, displayAspect);
      FitWidthFits(nearPlaneWidth, guideAspect, nearPlaneWidth, nearPlaneHeight);
      FitWidth(nearPlaneWidth, guideAspect)
    else if !IsLandscape(guideAspect) && !IsLandscape(displayAspect) then
      // the camera's long side is its height; the guide view's is its height
      Below(nearPlaneHeight, displayAspect);
      FitHeightFits(nearPlaneHeight, guideAspect, nearPlaneWidth, nearPlaneHeight);
      FitHeight(nearPlaneHeight, guideAspect)
    else if !IsLandscape(displayAspect) then
      // camera height against the guide view's width
      Below(nearPlaneHeight, displayAspect);
      FitWidthFits(nearPlaneHeight, guideAspect, nearPlaneWidth, nearPlaneHeight);
      FitWidth(nearPlaneHeight, guideAspect)
    else
      // camera width against the guide view's height
      Grows(nearPlaneHeight, displayAspect);
      FitHeightFits(nearPlaneWidth, guideAspect, nearPlaneWidth, nearPlaneHeight);
      FitHeight(nearPlaneWidth, guideAspect)
  }

  /** A plane of aspect ratio g and the given width; for g >= 1 the width is its long side. */
  function FitWidth(width: real, g: real): (p: (real, real))
    requires width > 0.0 && g > 0.0
    ensures p.0 == width && p.0 == p.1 * g && p.1 > 0.0
    ensures IsLandscape(g) ==> Max(p.0, p.1) == width
  {
    Shrinks(width, g);
    (width, width / g)
  }

  /** A plane of aspect ratio g and the given height; for g < 1 the height is its long side. */
  function FitHeight(height: real, g: real): (p: (real, real))
    requires height > 0.0 && g > 0.0
    ensures p.1 == height && p.0 == p.1 * g && p.0 > 0.0
    ensures !IsLandscape(g) ==> Max(p.0, p.1) == height
  {
    Below(height, g);
    (height * g, height)
  }

  /** A landscape guide view fitted by width to the near plane's long side fits it. */
  lemma FitWidthFits(width: real, g: real, nearPlaneWidth: real, nearPlaneHeight: real)
    requires width > 0.0 && IsLandscape(g)
    requires width == Max(nearPlaneWidth, nearPlaneHeight)
    ensures FitsNearPlane(FitWidth(width, g), g, nearPlaneWidth, nearPlaneHeight)
  {
    var p := FitWidth(width, g);
    assert Max(p.0, p.1) == width;
  }

  /** A portrait guide view fitted by height to the near plane's long side fits it. */
  lemma FitHeightFits(height: real, g: real, nearPlaneWidth: real, nearPlaneHeight: real)
    requires height > 0.0 && g > 0.0 && !IsLandscape(g)
    requires height == Max(nearPlaneWidth, nearPlaneHeight)
    ensures FitsNearPlane(FitHeight(height, g), g, nearPlaneWidth, nearPlaneHeight)
  {
    var p := FitHeight(height, g);
    assert Max(p.0, p.1) == height;
  }

  /** Dividing a positive length by a ratio of at least one does not lengthen it. */
  lemma Shrinks(p: real, g: real)
    requires p > 0.0 && g > 0.0
    ensures p / g > 0.0 && p / g * g == p
    ensures g >= 1.0 ==> p / g <= p
  {
    var q := p / g;
    assert q * g == p;
    assert p - q == q * (g - 1.0);
  }

  /** Multiplying a positive length by a ratio of at least one does not shorten it. */
  lemma Grows(p: real, g: real)
    requires p > 0.0 && g >= 1.0
    ensures p * g >= p
  {
    assert p * g - p == p * (g - 1.0);
  }

  /** Multiplying a positive length by a ratio below one shortens it. */
  lemma Below(p: real, g: real)
    requires p > 0.0 && g > 0.0
    ensures p * g > 0.0
    ensures g < 1.0 ==> p * g < p
  {
    assert p - p * g == p * (1.0 - g);
  }

  /**
    The plane size is the only one with the guide view's proportions whose
    long side matches the near plane's.
  */
  lemma GuidePlaneSizeIsUnique(guideAspect: real, displayAspect: real, nearPlaneHeight: real, w: real, h: real)
    requires guideAspect > 0.0 && displayAspect > 0.0 && nearPlaneHeight > 0.0
    requires FitsNearPlane((w, h), guideAspect, nearPlaneHeight * displayAspect, nearPlaneHeight)
    ensures GuidePlaneSize(guideAspect, displayAspect, nearPlaneHeight) == (w, h)
  {
    var p := GuidePlaneSize(guideAspect, displayAspect, nearPlaneHeight);
    FitIsUnique(p, (w, h), guideAspect, nearPlaneHeight * displayAspect, nearPlaneHeight);
  }

  /** Two planes that fit the same near plane with the same aspect ratio are equal. */
  lemma FitIsUnique(p: (real, real), q: (real, real), g: real, nearPlaneWidth: real, nearPlaneHeight: real)
    requires g > 0.0
    requires FitsNearPlane(p, g, nearPlaneWidth, nearPlaneHeight)
    requires FitsNearPlane(q, g, nearPlaneWidth, nearPlaneHeight)
    ensures p == q
  {
    SameProportionsSameMax(g, p.0, p.1, q.0, q.1);
  }

  /** Two positive rectangles with one aspect ratio and one long side are equal. */
  lemma SameProportionsSameMax(g: real, w: real, h: real, w': real, h': real)
    requires g > 0.0 && h > 0.0 && h' > 0.0
    requires w == h * g && w' == h' * g
    requires Max(w, h) == Max(w', h')
    ensures w == w' && h == h'
  {
    if h < h' {
      MultiplyStrict(h, h', g);
      assert false;
    } else if h' < h {
      MultiplyStrict(h', h, g);
      assert false;
    }
  }

  lemma MultiplyStrict(a: real, b: real, g: real)
    requires 0.0 < a < b && g > 0.0
    ensures a * g < b * g
  {
    assert b * g - a * g == (b - a) * g;
  }

  /**
    getModelTargetGuideView: a guide view is drawn iff a model target asked
    for guidance, it has at least one guide view, and the camera calibration
    is available; its first guide view is drawn. Projection is the identity
    and the model-view matrix scales x and y only (GuideScale says
    what the factors mean on screen).
  */
  function GetModelTargetGuideView(s: Session, f: FrameState, tan: real -> real): (r: Option<GuideViewRender>)
    requires s.guideViewModelTarget.Some? && |s.guideViewModelTarget.value.guideViews| > 0 && f.calibration.Some? ==>
      && s.guideViewModelTarget.value.guideViews[0].width > 0
      && s.guideViewModelTarget.value.guideViews[0].height > 0
      && s.displayAspectRatio > 0.0
      && NearPlaneHeight(tan, f.calibration.value.fieldOfViewY) > 0.0
    ensures r.Some? <==>
      s.guideViewModelTarget.Some? && |s.guideViewModelTarget.value.guideViews| > 0 && f.calibration.Some?
    ensures r.Some? ==>
      var guide := s.guideViewModelTarget.value.guideViews[0];
      && r.value.image == guide
      && r.value.projection == Identity()
      && r.value.modelView == MakeScaling(GuideScale(AspectRatio(guide), s.displayAspectRatio,
                                                     NearPlaneHeight(tan, f.calibration.value.fieldOfViewY)))
  {
    match s.guideViewModelTarget
    case None => None
    case Some(target) =>
      if |target.guideViews| == 0 then None
      else
        match f.calibration
        case None => None
        case Some(calibration) =>
          Some(GuideViewFor(target.guideViews[0], s.displayAspectRatio, NearPlaneHeight(tan, calibration.fieldOfViewY)))
  }

  /**
    The drawing of one guide-view image. Projection is the identity and the
    model-view matrix scales x and y only, by the plane's size relative to the
    near plane, doubled because normalised view space is 2 across (see
    GuideScale for what this means on screen).
  */
  function GuideViewFor(guide: GuideViewImage, displayAspect: real, nearPlaneHeight: real): (r: GuideViewRender)
    requires guide.width > 0 && guide.height > 0 && displayAspect > 0.0 && nearPlaneHeight > 0.0
    ensures r.image == guide && r.projection == Identity()
    ensures r.modelView == MakeScaling(GuideScale(AspectRatio(guide), displayAspect, nearPlaneHeight))
    ensures r.modelView[0][0] == GuideScale(AspectRatio(guide), displayAspect, nearPlaneHeight).x
    ensures r.modelView[1][1] == GuideScale(AspectRatio(guide), displayAspect, nearPlaneHeight).y
  {
    var scale := GuideScale(AspectRatio(guide), displayAspect, nearPlaneHeight);
    ScaleOfIdentity(scale);
    GuideViewRender(Identity(), Scale(scale, Identity()), guide)
  }

  /**
    The x and y factors that take the near plane to the guide plane, doubled
    because normalised view space is 2 across. On screen the drawn rectangle
    keeps the guide view's proportions and its long side is as long as the
    view's long side. When one of the two is landscape and the other
    portrait, that side lies across the view's short side and reaches past
    it, or exactly across it when the display is square.
  */
  function GuideScale(guideAspect: real, displayAspect: real, nearPlaneHeight: real): (v: Vec3)
    requires guideAspect > 0.0 && displayAspect > 0.0 && nearPlaneHeight > 0.0
    ensures v.z == 1.0
    ensures SpansView(v, guideAspect, nearPlaneHeight * displayAspect, nearPlaneHeight)
  {
    var nearPlaneWidth := nearPlaneHeight * displayAspect;
    PositiveProduct(nearPlaneHeight, displayAspect);
    var plane := GuidePlaneSize(guideAspect, displayAspect, nearPlaneHeight);
    NormalisedPlaneSize(plane, guideAspect, nearPlaneWidth, nearPlaneHeight);
    Vec3(2.0 * plane.0 / nearPlaneWidth, 2.0 * plane.1 / nearPlaneHeight, 1.0)
  }

  /**
    Scale factors v drawn over a view of size nearPlaneWidth x nearPlaneHeight
    (normalised to 2 x 2) give a rectangle of aspect ratio g whose long side
    is as long as the view's long side, whichever way each of them is turned.
  */
  predicate SpansView(v: Vec3, g: real, nearPlaneWidth: real, nearPlaneHeight: real) {
    && v.x * nearPlaneWidth == v.y * nearPlaneHeight * g
    && Max(v.x * nearPlaneWidth, v.y * nearPlaneHeight) == 2.0 * Max(nearPlaneWidth, nearPlaneHeight)
  }

  /**
    A landscape guide view on a portrait display: its width is matched to the
    near plane's height, so it is drawn at twice the view's width.
  */
  lemma MixedOrientationOverflows()
    ensures GuideScale(1.5, 0.5, 1.0) == Vec3(4.0, 4.0 / 3.0, 1.0)
  {
    assert GuidePlaneSize(1.5, 0.5, 1.0) == FitWidth(1.0, 1.5) == (1.0, 1.0 / 1.5);
  }

  /**
    With both the guide view and the display in landscape, the guide view is
    stretched across the whole width of the view: x is scaled by exactly 2.
  */
  lemma LandscapeGuideFillsWidth(guideAspect: real, displayAspect: real, nearPlaneHeight: real)
    requires guideAspect > 0.0 && displayAspect > 0.0 && nearPlaneHeight > 0.0
    requires IsLandscape(guideAspect) && IsLandscape(displayAspect)
    ensures GuideScale(guideAspect, displayAspect, nearPlaneHeight).x == 2.0
  {
    PositiveProduct(nearPlaneHeight, displayAspect);
    assert GuidePlaneSize(guideAspect, displayAspect, nearPlaneHeight).0 == nearPlaneHeight * displayAspect;
    DoubleRatio(nearPlaneHeight * displayAspect);
  }

  /**
    With both in portrait, the guide view is stretched across the whole
    height of the view: y is scaled by exactly 2.
  */
  lemma PortraitGuideFillsHeight(guideAspect: real, displayAspect: real, nearPlaneHeight: real)
    requires guideAspect > 0.0 && displayAspect > 0.0 && nearPlaneHeight > 0.0
    requires !IsLandscape(guideAspect) && !IsLandscape(displayAspect)
    ensures GuideScale(guideAspect, displayAspect, nearPlaneHeight).y == 2.0
  {
    assert GuidePlaneSize(guideAspect, displayAspect, nearPlaneHeight).1 == nearPlaneHeight;
    DoubleRatio(nearPlaneHeight);
  }

  lemma DoubleRatio(a: real)
    requires a > 0.0
    ensures 2.0 * a / a == 2.0
  {
  }

  lemma PositiveProduct(a: real, b: real)
    requires a > 0.0 && b > 0.0
    ensures a * b > 0.0
  {
  }

  /**
    A plane that fits the near plane, expressed as scale factors of the
    normalised view, spans the view.
  */
  lemma NormalisedPlaneSize(plane: (real, real), g: real, nearPlaneWidth: real, nearPlaneHeight: real)
    requires nearPlaneWidth > 0.0 && nearPlaneHeight > 0.0
    requires FitsNearPlane(plane, g, nearPlaneWidth, nearPlaneHeight)
    ensures SpansView(Vec3(2.0 * plane.0 / nearPlaneWidth, 2.0 * plane.1 / nearPlaneHeight, 1.0),
                      g, nearPlaneWidth, nearPlaneHeight)
  {
    var sx, sy := 2.0 * plane.0 / nearPlaneWidth, 2.0 * plane.1 / nearPlaneHeight;
    assert sx * nearPlaneWidth == 2.0 * plane.0;
    assert sy * nearPlaneHeight == 2.0 * plane.1;
  }

  /**
    In a frame where a model target is found with a pose, no guide view is
    drawn afterwards: finding the pose clears the candidate.
  */
  lemma PosedModelHidesGuideView(s: Session, f: FrameState, inverse: Matrix44 -> Matrix44, tan: real -> real)
    requires s.target == MODEL_TARGET_ID && HasPosedModelResult(f.results) && f.device.Some?
    ensures GetModelTargetResult(s, f, inverse).1.Some?
    ensures GetModelTargetGuideView(GetModelTargetResult(s, f, inverse).0, f, tan).None?
  {
  }

  /**
    A frame in which the only model-target result asks for guidance makes
    that target the candidate, so its first guide view is drawn when the
    calibration is available.
  */
  lemma GuidanceShowsGuideView(s: Session, f: FrameState, inverse: Matrix44 -> Matrix44, tan: real -> real, target: ModelTarget, pose: Matrix44)
    requires s.target == MODEL_TARGET_ID
    requires f.results == [ModelTargetResult(NoPose, NoDetectionRecommendingGuidance, pose, target)]
    requires |target.guideViews| > 0 && target.guideViews[0].width > 0 && target.guideViews[0].height > 0
    requires f.calibration.Some? && NearPlaneHeight(tan, f.calibration.value.fieldOfViewY) > 0.0
    requires s.displayAspectRatio > 0.0
    ensures GetModelTargetResult(s, f, inverse).0.guideViewModelTarget == Some(target)
    ensures var g := GetModelTargetGuideView(GetModelTargetResult(s, f, inverse).0, f, tan);
      g.Some? && g.value.image == target.guideViews[0]
  {
    assert !HasPosedModelResult(f.results) by {
      assert !IsPosedModelResult(f.results[0]);
    }
  }
}

=== FILE: lifecycle.dfy ===
/**
  The session lifecycle of the AppController: initAR, startAR, pauseAR,
  resumeAR, stopAR, deinitAR and configureRendering as pure transitions of a
  `Session`. Every call into the engine or the camera becomes an input: a
  success flag, or for the engine's initialisation the sequence of progress
  values it would return when polled.

  Callbacks are returned as a list of `Callback`s, surface notifications as a
  list of `SurfaceEvent`s. Log messages are not modelled.
*/
module Lifecycle {
  import opened Wrappers
  import opened AppTypes
  import opened VideoBackground

  /** The outcome of one transition: its boolean result, the new state, what it emitted. */
  datatype Step<E> = Step(ok: bool, session: Session, events: seq<E>)

  // ---------------------------------------------------------------------------
  // Engine initialisation

  /**
    The engine's initialisation error codes (its INIT_ERRORCODE enumeration).
    Only that they are negative and distinct matters here.
  */
  const INIT_ERROR: int := -1
  const INIT_DEVICE_NOT_SUPPORTED: int := -2
  const INIT_NO_CAMERA_ACCESS: int := -3
  const INIT_LICENSE_ERROR_MISSING_KEY: int := -4
  const INIT_LICENSE_ERROR_INVALID_KEY: int := -5
  const INIT_LICENSE_ERROR_NO_NETWORK_PERMANENT: int := -6
  const INIT_LICENSE_ERROR_NO_NETWORK_TRANSIENT: int := -7
  const INIT_LICENSE_ERROR_CANCELED_KEY: int := -8
  const INIT_LICENSE_ERROR_PRODUCT_TYPE_MISMATCH: int := -9

  /** The codes that have a message of their own. */
  const ListedInitCodes: set<int> := {
    INIT_NO_CAMERA_ACCESS, INIT_LICENSE_ERROR_NO_NETWORK_TRANSIENT,
    INIT_LICENSE_ERROR_NO_NETWORK_PERMANENT, INIT_LICENSE_ERROR_INVALID_KEY,
    INIT_LICENSE_ERROR_CANCELED_KEY, INIT_LICENSE_ERROR_MISSING_KEY,
    INIT_LICENSE_ERROR_PRODUCT_TYPE_MISMATCH, INIT_DEVICE_NOT_SUPPORTED }

  const DEFAULT_INIT_MESSAGE: string := "Vuforia initialization failed."

  /** A progress value that ends the polling: an error, or 100 and beyond. */
  predicate IsTerminal(progress: int) {
    progress < 0 || progress >= 100
  }

  /** The engine eventually reports a terminal progress value. */
  predicate HasTerminal(progress: seq<int>) {
    exists i | 0 <= i < |progress| :: IsTerminal(progress[i])
  }

  /** The position of the first terminal value among the engine's answers. */
  function FirstTerminalIndex(progress: seq<int>): (k: nat)
    requires HasTerminal(progress)
    ensures k < |progress| && IsTerminal(progress[k])
    ensures forall j | 0 <= j < k :: !IsTerminal(progress[j])
    decreases |progress|
  {
    if IsTerminal(progress[0]) then 0
    else
      assert HasTerminal(progress[1..]) by {
        var i :| 0 <= i < |progress| && IsTerminal(progress[i]);
        assert progress[1..][i - 1] == progress[i];
      }
      1 + FirstTerminalIndex(progress[1..])
  }

  /** The progress value the polling loop stops at. */
  function FinalProgress(progress: seq<int>): int
    requires HasTerminal(progress)
  {
    progress[FirstTerminalIndex(progress)]
  }

  /** The message reported for a failed engine initialisation. */
  function InitErrorMessage(code: int): string {
    if code == INIT_NO_CAMERA_ACCESS then
      "Vuforia cannot initialize because access to the camera was denied."
    else if code == INIT_LICENSE_ERROR_NO_NETWORK_TRANSIENT then
      "Vuforia failed to initialize because the license check encountered a temporary network error."
    else if code == INIT_LICENSE_ERROR_NO_NETWORK_PERMANENT then
      "Vuforia failed to initialize because the license check encountered a permanent network error."
    else if code == INIT_LICENSE_ERROR_INVALID_KEY then
      "Vuforia failed to initialize because the license key is invalid."
    else if code == INIT_LICENSE_ERROR_CANCELED_KEY then
      "Vuforia failed to initialize because the license key was cancelled."
    else if code == INIT_LICENSE_ERROR_MISSING_KEY then
      "Vuforia failed to initialize because the license key was missing."
    else if code == INIT_LICENSE_ERROR_PRODUCT_TYPE_MISMATCH then
      "Vuforia failed to initialize because the license key is for the wrong product type."
    else if code == INIT_DEVICE_NOT_SUPPORTED then
      "Vuforia failed to initialize because the device is not supported."
    else
      DEFAULT_INIT_MESSAGE
  }

  /**
    Each listed code has a message of its own, distinct from every other
    listed code's and from the default; any other code gets the default.
  */
  lemma InitErrorMessagesAreDistinct(a: int, b: int)
    ensures a in ListedInitCodes && b in ListedInitCodes && a != b ==> InitErrorMessage(a) != InitErrorMessage(b)
    ensures a in ListedInitCodes ==> InitErrorMessage(a) != DEFAULT_INIT_MESSAGE
    ensures a !in ListedInitCodes ==> InitErrorMessage(a) == DEFAULT_INIT_MESSAGE
  {
    MessageFingerprint(a);
    MessageFingerprint(b);
    CodeFingerprintsAreDistinct(a, b);
    if a in ListedInitCodes && b in ListedInitCodes && a != b {
      assert Fingerprint(InitErrorMessage(a)) != Fingerprint(InitErrorMessage(b));
    }
    if a in ListedInitCodes {
      assert Fingerprint(InitErrorMessage(a)) != Fingerprint(DEFAULT_INIT_MESSAGE);
    }
  }

  /** A few characters that tell the messages apart. */
  function Fingerprint(m: string): (int, char, char) {
    (|m|, if |m| == 65 then m[41] else ' ', if |m| == 93 then m[72] else ' ')
  }

  /** The fingerprint of each code's message. */
  function CodeFingerprint(code: int): (int, char, char) {
    if code == INIT_NO_CAMERA_ACCESS then (66, ' ', ' ')
    else if code == INIT_LICENSE_ERROR_NO_NETWORK_TRANSIENT then (93, ' ', 'p')
    else if code == INIT_LICENSE_ERROR_NO_NETWORK_PERMANENT then (93, ' ', 'm')
    else if code == INIT_LICENSE_ERROR_INVALID_KEY then (64, ' ', ' ')
    else if code == INIT_LICENSE_ERROR_CANCELED_KEY then (67, ' ', ' ')
    else if code == INIT_LICENSE_ERROR_MISSING_KEY then (65, 'l', ' ')
    else if code == INIT_LICENSE_ERROR_PRODUCT_TYPE_MISMATCH then (83, ' ', ' ')
    else if code == INIT_DEVICE_NOT_SUPPORTED then (65, 'd', ' ')
    else (30, ' ', ' ')
  }

  lemma CodeFingerprintsAreDistinct(a: int, b: int)
    ensures a in ListedInitCodes && b in ListedInitCodes && a != b ==> CodeFingerprint(a) != CodeFingerprint(b)
    ensures a in ListedInitCodes ==> CodeFingerprint(a) != (30, ' ', ' ')
  {
  }

  lemma MessageFingerprint(code: int)
    ensures Fingerprint(InitErrorMessage(code)) == CodeFingerprint(code)
    ensures Fingerprint(DEFAULT_INIT_MESSAGE) == (30, ' ', ' ')
    ensures code !in ListedInitCodes ==> InitErrorMessage(code) == DEFAULT_INIT_MESSAGE
  {
    if code == INIT_NO_CAMERA_ACCESS {
    } else if code == INIT_LICENSE_ERROR_NO_NETWORK_TRANSIENT {
    } else if code == INIT_LICENSE_ERROR_NO_NETWORK_PERMANENT {
    } else if code == INIT_LICENSE_ERROR_INVALID_KEY {
    } else if code == INIT_LICENSE_ERROR_CANCELED_KEY {
    } else if code == INIT_LICENSE_ERROR_MISSING_KEY {
    } else if code == INIT_LICENSE_ERROR_PRODUCT_TYPE_MISMATCH {
    } else if code == INIT_DEVICE_NOT_SUPPORTED {
    }
  }

  /**
    initVuforiaInternal: polls the engine, starting from progress 0, until it
    answers a negative value or one of at least 100. Succeeds iff that value
    is exactly 100; otherwise calls the error callback once.
    `responses` are the engine's answers, in order.
  */
  method InitVuforiaInternal(responses: seq<int>) returns (ok: bool, polls: nat, errors: seq<Callback>)
    requires HasTerminal(responses)
    ensures 1 <= polls <= |responses|
    ensures IsTerminal(responses[polls - 1])
    ensures forall j | 0 <= j < polls - 1 :: !IsTerminal(responses[j])
    ensures polls - 1 == FirstTerminalIndex(responses) && responses[polls - 1] == FinalProgress(responses)
    ensures ok <==> responses[polls - 1] == 100
    ensures ok ==> errors == []
    ensures !ok ==> errors == [ShowError(InitErrorMessage(responses[polls - 1]))]
  {
    var progress := 0;
    polls := 0;
    while progress >= 0 && progress < 100
      invariant polls <= FirstTerminalIndex(responses) + 1
      invariant polls == 0 ==> progress == 0
      invariant polls > 0 ==> progress == responses[polls - 1]
      invariant forall j | 0 <= j < polls :: j < FirstTerminalIndex(responses) || IsTerminal(responses[j])
      decreases |responses| - polls
    {
      progress := responses[polls];
      polls := polls + 1;
    }
    ok := progress == 100;
    errors := if ok then [] else [ShowError(InitErrorMessage(progress))];
  }

  // ---------------------------------------------------------------------------
  // Trackers and dataset

  /** The engine's answers to the dataset steps of loadAndActivateDataSet. */
  datatype DataSetSteps = DataSetSteps(objectTrackerPresent: bool, created: bool, loaded: bool, activated: bool)

  /** The engine's answers to the steps of initAR after the engine is up. */
  datatype InitOutcomes = InitOutcomes(
    engineProgress: seq<int>,
    deviceTrackerCreated: bool,
    objectTrackerCreated: bool,
    dataSet: DataSetSteps)

  /**
    loadAndActivateDataSet: a dataset from `path` exists afterwards only if the
    object tracker is there and creating, loading and activating all succeed;
    a failure part-way destroys the half-made dataset.
  */
  function LoadAndActivateDataSet(path: string, steps: DataSetSteps): (r: Option<DataSet>)
    ensures r.Some? <==> steps.objectTrackerPresent && steps.created && steps.loaded && steps.activated
    ensures r.Some? ==> r.value.path == path
  {
    if !steps.objectTrackerPresent then None
    else if !steps.created then None
    else if !steps.loaded then None
    else if !steps.activated then None
    else Some(DataSet(path))
  }

  /** The dataset file for a target selector: anything but the image selector loads the model dataset. */
  function DataSetPath(target: int): (path: string)
    ensures target == IMAGE_TARGET_ID ==> path == IMAGE_TARGET_DATASET
    ensures target == MODEL_TARGET_ID ==> path == MODEL_TARGET_DATASET
  {
    if target == IMAGE_TARGET_ID then IMAGE_TARGET_DATASET else MODEL_TARGET_DATASET
  }

  /** initTrackers: creates the device tracker, then the object tracker. */
  function InitTrackers(o: InitOutcomes): (r: Option<string>)
    ensures r.None? <==> o.deviceTrackerCreated && o.objectTrackerCreated
    ensures !o.deviceTrackerCreated ==> r == Some("Error initializing the device tracker")
    ensures o.deviceTrackerCreated && !o.objectTrackerCreated ==> r == Some("Error initializing the object tracker")
  {
    if !o.deviceTrackerCreated then Some("Error initializing the device tracker")
    else if !o.objectTrackerCreated then Some("Error initializing the object tracker")
    else None
  }

  /**
    loadTrackerData: refuses when a dataset is already loaded; otherwise loads
    the selected target's dataset and records the outcome.
  */
  function LoadTrackerData(s: Session, steps: DataSetSteps): (r: Step<Callback>)
    ensures r.ok <==> s.currentDataSet.None? && LoadAndActivateDataSet(DataSetPath(s.target), steps).Some?
    ensures r.ok ==> r.events == [] && r.session == s.(currentDataSet := Some(DataSet(DataSetPath(s.target))))
    ensures !r.ok ==> |r.events| == 1 && r.events[0].ShowError? && r.session == s
    ensures s.currentDataSet.Some? ==> r.events == [ShowError("Attempt to load a dataset when one is already loaded")]
    ensures s.currentDataSet.None? && !r.ok ==>
      r.events == [ShowError(if s.target == IMAGE_TARGET_ID then "Error loading dataset for Image Target"
                             else "Error loading dataset for Model Target")]
  {
    if s.currentDataSet.Some? then
      Step(false, s, [ShowError("Attempt to load a dataset when one is already loaded")])
    else
      var loaded := LoadAndActivateDataSet(DataSetPath(s.target), steps);
      if loaded.None? then
        var msg := if s.target == IMAGE_TARGET_ID then "Error loading dataset for Image Target"
                   else "Error loading dataset for Model Target";
        Step(false, s.(currentDataSet := loaded), [ShowError(msg)])
      else
        Step(true, s.(currentDataSet := loaded), [])
  }

  // ---------------------------------------------------------------------------
  // Lifecycle transitions

  /** The state initAR starts from: the selector recorded, camera, one-time-rendering and guide-view state cleared. */
  function ResetForInit(s: Session, target: int): Session {
    s.(target := target, doneOneTimeRenderingConfiguration := false,
       cameraIsActive := false, cameraIsStarted := false, guideViewModelTarget := None)
  }

  /**
    initAR: records the selector and clears the camera, one-time-rendering and
    guide-view state (there is no guard against a second call), then runs
    engine initialisation, tracker creation and dataset loading in that
    order, stopping at the first failure. Exactly one callback fires: the
    init-done callback iff all three steps succeed, else one error.
  */
  function InitAR(s: Session, target: int, o: InitOutcomes): (r: Step<Callback>)
    requires HasTerminal(o.engineProgress)
    ensures var t := r.session;
      t.target == target && !t.cameraIsActive && !t.cameraIsStarted
      && !t.doneOneTimeRenderingConfiguration && t.guideViewModelTarget.None?
    ensures r.session.orientation == s.orientation && r.session.displayAspectRatio == s.displayAspectRatio
      && r.session.hasRenderingPrimitives == s.hasRenderingPrimitives && r.session.videoBackground == s.videoBackground
    ensures |r.events| == 1
    ensures r.ok <==> r.events == [InitDone]
    ensures r.ok <==>
      FinalProgress(o.engineProgress) == 100 && o.deviceTrackerCreated && o.objectTrackerCreated
      && s.currentDataSet.None? && LoadAndActivateDataSet(DataSetPath(target), o.dataSet).Some?
    ensures FinalProgress(o.engineProgress) != 100 ==>
      r.events == [ShowError(InitErrorMessage(FinalProgress(o.engineProgress)))]
    ensures FinalProgress(o.engineProgress) == 100 && InitTrackers(o).Some? ==>
      r.events == [ShowError(InitTrackers(o).value)]
    ensures FinalProgress(o.engineProgress) == 100 && InitTrackers(o).None? && !r.ok ==>
      r.events == LoadTrackerData(ResetForInit(s, target), o.dataSet).events
    ensures r.session.currentDataSet == if r.ok then Some(DataSet(DataSetPath(target))) else s.currentDataSet
  {
    var reset := ResetForInit(s, target);
    var progress := FinalProgress(o.engineProgress);
    if progress != 100 then
      Step(false, reset, [ShowError(InitErrorMessage(progress))])
    else
      var trackerError := InitTrackers(o);
      if trackerError.Some? then
        Step(false, reset, [ShowError(trackerError.value)])
      else
        var load := LoadTrackerData(reset, o.dataSet);
        if !load.ok then load
        else Step(true, load.session, [InitDone])
  }

  /** The engine's and camera's answers to the calls startAR makes. */
  datatype StartOutcomes = StartOutcomes(
    cameraInit: bool,
    selectVideoMode: bool,
    objectTrackerPresent: bool,
    cameraStart: bool,
    continuousAutofocus: bool)

  /**
    startAR: refused, silently, when the camera is already started or active.
    Otherwise initialises the camera, selects the video mode, starts the
    trackers and starts the camera; only if all succeed are both camera flags
    set. A failure reports one error and changes nothing.
  */
  function StartAR(s: Session, o: StartOutcomes): (r: Step<Callback>)
    ensures r.ok <==>
      !s.cameraIsStarted && !s.cameraIsActive
      && o.cameraInit && o.selectVideoMode && o.objectTrackerPresent && o.cameraStart
    ensures r.ok ==> r.session == s.(cameraIsActive := true, cameraIsStarted := true) && r.events == []
    ensures !r.ok ==> r.session == s
    ensures s.cameraIsStarted || s.cameraIsActive ==> r.events == []
    ensures !r.ok && !s.cameraIsStarted && !s.cameraIsActive ==> |r.events| == 1 && r.events[0].ShowError?
    ensures !s.cameraIsStarted && !s.cameraIsActive ==>
      && (!o.cameraInit ==> r.events == [ShowError("Failed to initialize the camera")])
      && (o.cameraInit && !o.selectVideoMode ==> r.events == [ShowError("Failed to set the camera mode")])
      && (o.cameraInit && o.selectVideoMode && !o.objectTrackerPresent ==>
            r.events == [ShowError("Failed to start trackers")])
      && (o.cameraInit && o.selectVideoMode && o.objectTrackerPresent && !o.cameraStart ==>
            r.events == [ShowError("Failed to start the camera")])
  {
    if s.cameraIsStarted || s.cameraIsActive then Step(false, s, [])
    else if !o.cameraInit then Step(false, s, [ShowError("Failed to initialize the camera")])
    else if !o.selectVideoMode then Step(false, s, [ShowError("Failed to set the camera mode")])
    else if !o.objectTrackerPresent then Step(false, s, [ShowError("Failed to start trackers")])
    else if !o.cameraStart then Step(false, s, [ShowError("Failed to start the camera")])
    else Step(true, s.(cameraIsActive := true, cameraIsStarted := true), [])
  }

  /** A failure to switch on continuous autofocus is not fatal to startAR. */
  lemma AutofocusIsNotFatal(s: Session, o: StartOutcomes)
    ensures StartAR(s, o) == StartAR(s, o.(continuousAutofocus := true))
  {
  }

  /**
    pauseAR: stops the camera if it is running. Only the "active" flag is
    cleared: "started" stays as it was, so resumeAR knows to restart it.
    Failures to stop the camera are only logged.
  */
  function PauseAR(s: Session): (r: Session)
    ensures !r.cameraIsActive
    ensures r.cameraIsStarted == s.cameraIsStarted
    ensures r.(cameraIsActive := s.cameraIsActive) == s
  {
    s.(cameraIsActive := false)
  }

  /**
    resumeAR: restarts the camera only when it was started and is not running,
    and only if both camera init and start succeed. Never changes "started".
    Refreshes the rendering primitives whenever the camera was started.
  */
  function ResumeAR(s: Session, cameraInit: bool, cameraStart: bool): (r: Session)
    ensures r.cameraIsStarted == s.cameraIsStarted
    ensures r.cameraIsActive <==> s.cameraIsActive || (s.cameraIsStarted && cameraInit && cameraStart)
    ensures r.hasRenderingPrimitives <==> s.hasRenderingPrimitives || s.cameraIsStarted
    ensures r.(cameraIsActive := s.cameraIsActive, hasRenderingPrimitives := s.hasRenderingPrimitives) == s
  {
    var restarted :=
      if s.cameraIsStarted && !s.cameraIsActive && cameraInit && cameraStart
      then s.(cameraIsActive := true) else s;
    if s.cameraIsStarted then restarted.(hasRenderingPrimitives := true) else restarted
  }

  /** stopAR: always ends with the camera neither running nor started. */
  function StopAR(s: Session): (r: Session)
    ensures !r.cameraIsActive && !r.cameraIsStarted
    ensures r.(cameraIsActive := s.cameraIsActive, cameraIsStarted := s.cameraIsStarted) == s
  {
    s.(cameraIsActive := false, cameraIsStarted := false)
  }

  /**
    deinitAR: unloads the dataset, destroys the trackers and shuts the engine
    down. The dataset is forgotten only if the object tracker can still be
    found; the camera flags are left as they are.
  */
  function DeinitAR(s: Session, objectTrackerPresent: bool): (r: Session)
    ensures r.currentDataSet.None? <==> objectTrackerPresent || s.currentDataSet.None?
    ensures r.(currentDataSet := s.currentDataSet) == s
  {
    if objectTrackerPresent then s.(currentDataSet := None) else s
  }

  /**
    configureRendering: refused before the camera has been started. Otherwise
    records the orientation and display aspect ratio, sends "surface created"
    on the first call only, sends "surface changed" with the short side first
    in portrait and the long side first in landscape, and recomputes the video
    background for the camera's current video mode.
  */
  function ConfigureRendering(s: Session, width: int, height: int, orientation: int, mode: VideoMode): (r: Step<SurfaceEvent>)
    requires s.cameraIsStarted ==> width > 0 && height > 0 && ValidMode(mode)
    ensures !s.cameraIsStarted ==> !r.ok && r.session == s && r.events == []
    ensures s.cameraIsStarted ==>
      && r.ok
      && r.session.orientation == orientation
      && r.session.displayAspectRatio == width as real / height as real
      && r.session.doneOneTimeRenderingConfiguration
      && r.session.hasRenderingPrimitives
      && r.session.videoBackground == Some(ConfigureVideoBackground(width, height, IsScreenPortrait(orientation), mode))
      && r.session.(orientation := s.orientation, displayAspectRatio := s.displayAspectRatio,
                    doneOneTimeRenderingConfiguration := s.doneOneTimeRenderingConfiguration,
                    hasRenderingPrimitives := s.hasRenderingPrimitives, videoBackground := s.videoBackground) == s
    ensures (SurfaceCreated in r.events) <==> s.cameraIsStarted && !s.doneOneTimeRenderingConfiguration
    ensures s.cameraIsStarted ==>
      && |r.events| == (if s.doneOneTimeRenderingConfiguration then 1 else 2)
      && (!s.doneOneTimeRenderingConfiguration ==> r.events[0] == SurfaceCreated)
    ensures s.cameraIsStarted ==>
      && 1 <= |r.events|
      && r.events[|r.events| - 1].SurfaceChanged?
      && var e := r.events[|r.events| - 1];
         multiset{e.width, e.height} == multiset{width, height}
         && (IsScreenPortrait(orientation) ==> e.width <= e.height)
         && (!IsScreenPortrait(orientation) ==> e.width >= e.height)
  {
    if !s.cameraIsStarted then Step(false, s, [])
    else
      var created := if s.doneOneTimeRenderingConfiguration then [] else [SurfaceCreated];
      var smaller := if width < height then width else height;
      var larger := if width < height then height else width;
      var changed := if IsScreenPortrait(orientation) then SurfaceChanged(smaller, larger)
                     else SurfaceChanged(larger, smaller);
      var fit := ConfigureVideoBackground(width, height, IsScreenPortrait(orientation), mode);
      Step(true,
           s.(orientation := orientation,
              displayAspectRatio := width as real / height as real,
              doneOneTimeRenderingConfiguration := true,
              hasRenderingPrimitives := true,
              videoBackground := Some(fit)),
           created + [changed])
  }

  /** After one successful configureRendering, later calls never send "surface created". */
  lemma SurfaceCreatedOnlyOnce(s: Session, w1: int, h1: int, o1: int, w2: int, h2: int, o2: int, mode: VideoMode)
    requires s.cameraIsStarted && w1 > 0 && h1 > 0 && w2 > 0 && h2 > 0 && ValidMode(mode)
    ensures var first := ConfigureRendering(s, w1, h1, o1, mode);
      SurfaceCreated !in ConfigureRendering(first.session, w2, h2, o2, mode).events
  {
  }

  // ---------------------------------------------------------------------------
  // Sequences of calls

  /** One call the host makes, with the engine's answers to it. */
  datatype Command =
    | InitCmd(target: int, init: InitOutcomes)
    | StartCmd(start: StartOutcomes)
    | PauseCmd
    | ResumeCmd(cameraInit: bool, cameraStart: bool)
    | StopCmd
    | DeinitCmd(objectTrackerPresent: bool)
    | ConfigureCmd(width: int, height: int, orientation: int, mode: VideoMode)

  /** The engine answers terminate the init polling, and display sizes are positive. */
  predicate Executable(c: Command) {
    match c
    case InitCmd(_, o) => HasTerminal(o.engineProgress)
    case ConfigureCmd(w, h, _, m) => w > 0 && h > 0 && ValidMode(m)
    case _ => true
  }

  function Apply(s: Session, c: Command): Session
    requires Executable(c)
  {
    match c
    case InitCmd(target, o) => InitAR(s, target, o).session
    case StartCmd(o) => StartAR(s, o).session
    case PauseCmd => PauseAR(s)
    case ResumeCmd(i, st) => ResumeAR(s, i, st)
    case StopCmd => StopAR(s)
    case DeinitCmd(p) => DeinitAR(s, p)
    case ConfigureCmd(w, h, or, m) => ConfigureRendering(s, w, h, or, m).session
  }

  function Run(s: Session, cs: seq<Command>): Session
    requires forall i | 0 <= i < |cs| :: Executable(cs[i])
    decreases |cs|
  {
    if |cs| == 0 then s else Run(Apply(s, cs[0]), cs[1..])
  }

  /** Every lifecycle transition keeps "active implies started". */
  lemma ApplyKeepsCameraFlagsConsistent(s: Session, c: Command)
    requires Executable(c) && CameraFlagsConsistent(s)
    ensures CameraFlagsConsistent(Apply(s, c))
  {
  }

  /** "Active implies started" holds after any sequence of calls from a consistent state. */
  lemma {:induction false} RunKeepsCameraFlagsConsistent(s: Session, cs: seq<Command>)
    requires forall i | 0 <= i < |cs| :: Executable(cs[i])
    requires CameraFlagsConsistent(s)
    ensures CameraFlagsConsistent(Run(s, cs))
    decreases |cs|
  {
    if |cs| > 0 {
      ApplyKeepsCameraFlagsConsistent(s, cs[0]);
      assert forall i | 0 <= i < |cs[1..]| :: Executable(cs[1..][i]) by {
        forall i | 0 <= i < |cs[1..]| ensures Executable(cs[1..][i]) {
          assert cs[1..][i] == cs[i + 1];
        }
      }
      RunKeepsCameraFlagsConsistent(Apply(s, cs[0]), cs[1..]);
    }
  }

  /** ... and so it holds in every state reachable from the initial one. */
  lemma ReachableStatesAreConsistent(cs: seq<Command>)
    requires forall i | 0 <= i < |cs| :: Executable(cs[i])
    ensures CameraFlagsConsistent(Run(Initial(), cs))
  {
    RunKeepsCameraFlagsConsistent(Initial(), cs);
  }

  /**
    Pausing a running camera keeps isCameraStarted true, and a resume whose
    camera calls succeed restores the running state.
  */
  lemma PauseThenResume(s: Session)
    requires s.cameraIsActive && CameraFlagsConsistent(s)
    ensures IsCameraStarted(PauseAR(s)) && !PauseAR(s).cameraIsActive
    ensures var t := ResumeAR(PauseAR(s), true, true);
      t.cameraIsActive && t.cameraIsStarted && t.hasRenderingPrimitives
  {
  }

  /**
    A concrete run: a successful init and start followed by a pause leaves the
    camera stopped while isCameraStarted still answers true.
  */
  lemma StartedWhileCameraStopped()
    ensures var ok := InitOutcomes([10, 60, 100], true, true, DataSetSteps(true, true, true, true));
      var cs := [InitCmd(IMAGE_TARGET_ID, ok), StartCmd(StartOutcomes(true, true, true, true, false)), PauseCmd];
      (forall i | 0 <= i < |cs| :: Executable(cs[i]))
      && IsCameraStarted(Run(Initial(), cs)) && !Run(Initial(), cs).cameraIsActive
  {
    var ok := InitOutcomes([10, 60, 100], true, true, DataSetSteps(true, true, true, true));
    assert IsTerminal(ok.engineProgress[2]);
    assert FirstTerminalIndex(ok.engineProgress) == 2;
    var cs := [InitCmd(IMAGE_TARGET_ID, ok), StartCmd(StartOutcomes(true, true, true, true, false)), PauseCmd];
    var s1 := Apply(Initial(), cs[0]);
    assert s1.cameraIsActive == false && s1.cameraIsStarted == false;
    var s2 := Apply(s1, cs[1]);
    assert s2.cameraIsStarted && s2.cameraIsActive;
    var s3 := Apply(s2, cs[2]);
    assert Run(Initial(), cs) == Run(s1, cs[1..]);
    assert cs[1..][1..] == [PauseCmd];
    assert Run(s1, cs[1..]) == Run(s2, [PauseCmd]);
    assert Run(s2, [PauseCmd]) == Run(s3, []);
  }

  /**
    A second initAR without deinitAR is not rejected up front: it resets the
    camera flags and runs again, and with the first dataset still loaded its
    dataset step fails with the "already loaded" error.
  */
  lemma SecondInitFailsOnLoadedDataSet(s: Session, target: int, o: InitOutcomes)
    requires HasTerminal(o.engineProgress) && s.currentDataSet.Some?
    requires FinalProgress(o.engineProgress) == 100 && o.deviceTrackerCreated && o.objectTrackerCreated
    ensures var r := InitAR(s, target, o);
      !r.ok && r.events == [ShowError("Attempt to load a dataset when one is already loaded")]
      && r.session.currentDataSet == s.currentDataSet && !r.session.cameraIsStarted
  {
  }
}

=== FILE: math_utils.dfy ===
/**
  The vector and 4x4 matrix layer the render transforms are built from.

  Only the operations whose header comments state their meaning in full are
  defined here, directly from those comments, over exact reals:
  identity, transpose, product, translation and scaling matrices, the
  post-multiplying `Translate`/`Scale` compositions and their in-place
  variants, and the 3-D vector operations.

  Convention: a matrix is four rows of four reals, entry (i, j) is row i,
  column j, and the row-storage array of the engine holds entry (i, j) at
  index 4*i + j. Vectors are column vectors transformed as `m * v`, so a
  translation occupies column 3.
*/
module MathUtils {

  /** A 3-D vector (the engine's Vec3F). */
  datatype Vec3 = Vec3(x: real, y: real, z: real)

  predicate IsMatrix44(m: seq<seq<real>>) {
    |m| == 4 && forall i | 0 <= i < 4 :: |m[i]| == 4
  }

  /** A 4x4 matrix (the engine's Matrix44F), as four rows. */
  type Matrix44 = m: seq<seq<real>> | IsMatrix44(m)
    witness [[0.0, 0.0, 0.0, 0.0], [0.0, 0.0, 0.0, 0.0], [0.0, 0.0, 0.0, 0.0], [0.0, 0.0, 0.0, 0.0]]

  /** Builds a matrix from its sixteen entries, given row by row. */
  function Rows(a00: real, a01: real, a02: real, a03: real,
                a10: real, a11: real, a12: real, a13: real,
                a20: real, a21: real, a22: real, a23: real,
                a30: real, a31: real, a32: real, a33: real): Matrix44
  {
    [[a00, a01, a02, a03], [a10, a11, a12, a13], [a20, a21, a22, a23], [a30, a31, a32, a33]]
  }

  // ---------------------------------------------------------------------------
  // Vectors

  function Vec3Zero(): Vec3 { Vec3(0.0, 0.0, 0.0) }

  /** result = -v */
  function Vec3Opposite(v: Vec3): Vec3 { Vec3(-v.x, -v.y, -v.z) }

  /** result = v1 + v2 */
  function Vec3Add(a: Vec3, b: Vec3): Vec3 { Vec3(a.x + b.x, a.y + b.y, a.z + b.z) }

  /** result = v1 - v2 */
  function Vec3Sub(a: Vec3, b: Vec3): Vec3 { Vec3(a.x - b.x, a.y - b.y, a.z - b.z) }

  /** result = v1 . v2 */
  function Vec3Dot(a: Vec3, b: Vec3): real { a.x * b.x + a.y * b.y + a.z * b.z }

  /** result = v1 x v2 */
  function Vec3Cross(a: Vec3, b: Vec3): Vec3 {
    Vec3(a.y * b.z - a.z * b.y, a.z * b.x - a.x * b.z, a.x * b.y - a.y * b.x)
  }

  /** Transforms a point: result = m * (v, 1), dropping the fourth coordinate. */
  function Vec3Transform(m: Matrix44, v: Vec3): Vec3 {
    Vec3(m[0][0] * v.x + m[0][1] * v.y + m[0][2] * v.z + m[0][3],
         m[1][0] * v.x + m[1][1] * v.y + m[1][2] * v.z + m[1][3],
         m[2][0] * v.x + m[2][1] * v.y + m[2][2] * v.z + m[2][3])
  }

  /** The first three entries of a matrix row against a vector. */
  function RowDot(row: seq<real>, v: Vec3): real
    requires |row| == 4
  {
    row[0] * v.x + row[1] * v.y + row[2] * v.z
  }

  /** Transforms a normal by the rotation part only: result = m * (v, 0). */
  function Vec3TransformNormal(m: Matrix44, v: Vec3): Vec3 {
    Vec3(RowDot(m[0], v), RowDot(m[1], v), RowDot(m[2], v))
  }

  lemma SubIsAddOpposite(a: Vec3, b: Vec3)
    ensures Vec3Sub(a, b) == Vec3Add(a, Vec3Opposite(b))
  {
  }

  lemma OppositeIsInverse(v: Vec3)
    ensures Vec3Add(v, Vec3Opposite(v)) == Vec3Zero()
    ensures Vec3Opposite(Vec3Opposite(v)) == v
  {
  }

  /** The cross product is orthogonal to both of its arguments. */
  lemma CrossIsOrthogonal(a: Vec3, b: Vec3)
    ensures Vec3Dot(a, Vec3Cross(a, b)) == 0.0
    ensures Vec3Dot(b, Vec3Cross(a, b)) == 0.0
  {
    var c := Vec3Cross(a, b);
    calc {
      Vec3Dot(a, c);
      a.x * (a.y * b.z - a.z * b.y) + a.y * (a.z * b.x - a.x * b.z) + a.z * (a.x * b.y - a.y * b.x);
      (a.x * a.y * b.z - a.y * a.x * b.z) + (a.y * a.z * b.x - a.z * a.y * b.x) + (a.z * a.x * b.y - a.x * a.z * b.y);
      0.0;
    }
    calc {
      Vec3Dot(b, c);
      b.x * (a.y * b.z - a.z * b.y) + b.y * (a.z * b.x - a.x * b.z) + b.z * (a.x * b.y - a.y * b.x);
      (a.y * b.x * b.z - a.y * b.z * b.x) + (a.z * b.y * b.x - a.z * b.x * b.y) + (a.x * b.z * b.y - a.x * b.y * b.z);
      0.0;
    }
  }

  lemma CrossIsAntiCommutative(a: Vec3, b: Vec3)
    ensures Vec3Cross(b, a) == Vec3Opposite(Vec3Cross(a, b))
  {
  }

  // ---------------------------------------------------------------------------
  // Matrix construction and composition

  function Identity(): Matrix44 {
    Rows(1.0, 0.0, 0.0, 0.0,
         0.0, 1.0, 0.0, 0.0,
         0.0, 0.0, 1.0, 0.0,
         0.0, 0.0, 0.0, 1.0)
  }

  /** result = transpose(m) */
  function Transpose(m: Matrix44): Matrix44 {
    seq(4, i requires 0 <= i < 4 => seq(4, j requires 0 <= j < 4 => m[j][i]))
  }

  /** Entry (i, j) of the product a * b. */
  function RowCol(a: Matrix44, b: Matrix44, i: int, j: int): real
    requires 0 <= i < 4 && 0 <= j < 4
  {
    a[i][0] * b[0][j] + a[i][1] * b[1][j] + a[i][2] * b[2][j] + a[i][3] * b[3][j]
  }

  /** C = mA * mB */
  function Multiply(a: Matrix44, b: Matrix44): Matrix44 {
    seq(4, i requires 0 <= i < 4 => seq(4, j requires 0 <= j < 4 => RowCol(a, b, i, j)))
  }

  /** The translation matrix T(v). */
  function MakeTranslation(v: Vec3): Matrix44 {
    Rows(1.0, 0.0, 0.0, v.x,
         0.0, 1.0, 0.0, v.y,
         0.0, 0.0, 1.0, v.z,
         0.0, 0.0, 0.0, 1.0)
  }

  /** The scaling matrix S(scale). */
  function MakeScaling(s: Vec3): Matrix44 {
    Rows(s.x, 0.0, 0.0, 0.0,
         0.0, s.y, 0.0, 0.0,
         0.0, 0.0, s.z, 0.0,
         0.0, 0.0, 0.0, 1.0)
  }

  /** One row of m * S(s): the first three columns scaled componentwise. */
  function ScaleRow(row: seq<real>, s: Vec3): seq<real>
    requires |row| == 4
  {
    [row[0] * s.x, row[1] * s.y, row[2] * s.z, row[3]]
  }

  /** One row of m * T(v): column 3 picks up the translated origin. */
  function TranslateRow(row: seq<real>, v: Vec3): seq<real>
    requires |row| == 4
  {
    [row[0], row[1], row[2], row[0] * v.x + row[1] * v.y + row[2] * v.z + row[3]]
  }

  /** Matrix44FScale: scales m by `s`, written column by column. */
  function Scale(s: Vec3, m: Matrix44): Matrix44 {
    seq(4, i requires 0 <= i < 4 => ScaleRow(m[i], s))
  }

  /** Matrix44FTranslate: translates m by `v`, written column by column. */
  function Translate(v: Vec3, m: Matrix44): Matrix44 {
    seq(4, i requires 0 <= i < 4 => TranslateRow(m[i], v))
  }

  // ---------------------------------------------------------------------------
  // Facts about the composition

  lemma TransposeSwapsIndices(m: Matrix44, i: int, j: int)
    requires 0 <= i < 4 && 0 <= j < 4
    ensures Transpose(m)[i][j] == m[j][i]
  {
  }

  lemma TransposeIsInvolution(m: Matrix44)
    ensures Transpose(Transpose(m)) == m
  {
    var t := Transpose(Transpose(m));
    forall i | 0 <= i < 4
      ensures t[i] == m[i]
    {
      assert |t[i]| == |m[i]| == 4;
      assert forall j | 0 <= j < 4 :: t[i][j] == m[i][j];
    }
  }

  lemma TransposeOfProduct(a: Matrix44, b: Matrix44)
    ensures Transpose(Multiply(a, b)) == Multiply(Transpose(b), Transpose(a))
  {
    var l := Transpose(Multiply(a, b));
    var r := Multiply(Transpose(b), Transpose(a));
    forall i | 0 <= i < 4
      ensures l[i] == r[i]
    {
      forall j | 0 <= j < 4
        ensures l[i][j] == r[i][j]
      {
        assert l[i][j] == RowCol(a, b, j, i);
        assert r[i][j] == RowCol(Transpose(b), Transpose(a), i, j);
      }
    }
  }

  lemma IdentityIsLeftUnit(m: Matrix44)
    ensures Multiply(Identity(), m) == m
  {
    var p := Multiply(Identity(), m);
    forall i | 0 <= i < 4
      ensures p[i] == m[i]
    {
      forall j | 0 <= j < 4
        ensures p[i][j] == m[i][j]
      {
        assert p[i][j] == RowCol(Identity(), m, i, j);
      }
    }
  }

  lemma IdentityIsRightUnit(m: Matrix44)
    ensures Multiply(m, Identity()) == m
  {
    var p := Multiply(m, Identity());
    forall i | 0 <= i < 4
      ensures p[i] == m[i]
    {
      forall j | 0 <= j < 4
        ensures p[i][j] == m[i][j]
      {
        assert p[i][j] == RowCol(m, Identity(), i, j);
      }
    }
  }

  /** Matrix44FScale(s, m) == m * makeScalingMatrix(s). */
  lemma ScaleIsPostMultiply(s: Vec3, m: Matrix44)
    ensures Scale(s, m) == Multiply(m, MakeScaling(s))
  {
    var l := Scale(s, m);
    var r := Multiply(m, MakeScaling(s));
    forall i | 0 <= i < 4
      ensures l[i] == r[i]
    {
      forall j | 0 <= j < 4
        ensures l[i][j] == r[i][j]
      {
        assert r[i][j] == RowCol(m, MakeScaling(s), i, j);
      }
    }
  }

  /** Matrix44FTranslate(v, m) == m * makeTranslationMatrix(v). */
  lemma TranslateIsPostMultiply(v: Vec3, m: Matrix44)
    ensures Translate(v, m) == Multiply(m, MakeTranslation(v))
  {
    var l := Translate(v, m);
    var r := Multiply(m, MakeTranslation(v));
    forall i | 0 <= i < 4
      ensures l[i] == r[i]
    {
      forall j | 0 <= j < 4
        ensures l[i][j] == r[i][j]
      {
        assert r[i][j] == RowCol(m, MakeTranslation(v), i, j);
      }
    }
  }

  /**
    Post-multiplying by T(c) * S(s), as the model-target bounding box is
    placed, is translating by c and then scaling by s.
  */
  lemma TranslateThenScale(c: Vec3, s: Vec3, m: Matrix44)
    ensures Multiply(m, Multiply(MakeTranslation(c), MakeScaling(s))) == Scale(s, Translate(c, m))
  {
    var ts := Multiply(MakeTranslation(c), MakeScaling(s));
    var placed := Rows(s.x, 0.0, 0.0, c.x,
                       0.0, s.y, 0.0, c.y,
                       0.0, 0.0, s.z, c.z,
                       0.0, 0.0, 0.0, 1.0);
    forall i | 0 <= i < 4
      ensures ts[i] == placed[i]
    {
      forall j | 0 <= j < 4
        ensures ts[i][j] == placed[i][j]
      {
        assert ts[i][j] == RowCol(MakeTranslation(c), MakeScaling(s), i, j);
      }
    }
    assert ts == placed;
    forall i | 0 <= i < 4
      ensures Multiply(m, placed)[i] == Scale(s, Translate(c, m))[i]
    {
      PlacedRow(m, c, s, i);
    }
  }

  /** Row i of m * (T(c) * S(s)), written out. */
  lemma PlacedRow(m: Matrix44, c: Vec3, s: Vec3, i: int)
    requires 0 <= i < 4
    ensures Multiply(m, Rows(s.x, 0.0, 0.0, c.x,
                             0.0, s.y, 0.0, c.y,
                             0.0, 0.0, s.z, c.z,
                             0.0, 0.0, 0.0, 1.0))[i]
         == ScaleRow(TranslateRow(m[i], c), s)
  {
    var placed := Rows(s.x, 0.0, 0.0, c.x,
                       0.0, s.y, 0.0, c.y,
                       0.0, 0.0, s.z, c.z,
                       0.0, 0.0, 0.0, 1.0);
    var row := m[i];
    var l := Multiply(m, placed)[i];
    var r := ScaleRow(TranslateRow(row, c), s);
    assert l[0] == r[0] by { assert l[0] == RowCol(m, placed, i, 0); }
    assert l[1] == r[1] by { assert l[1] == RowCol(m, placed, i, 1); }
    assert l[2] == r[2] by { assert l[2] == RowCol(m, placed, i, 2); }
    assert l[3] == r[3] by { assert l[3] == RowCol(m, placed, i, 3); }
  }

  /** Scaling the identity gives the scaling matrix itself. */
  lemma ScaleOfIdentity(s: Vec3)
    ensures Scale(s, Identity()) == MakeScaling(s)
  {
    assert Scale(s, Identity())[0] == MakeScaling(s)[0];
    assert Scale(s, Identity())[1] == MakeScaling(s)[1];
    assert Scale(s, Identity())[2] == MakeScaling(s)[2];
    assert Scale(s, Identity())[3] == MakeScaling(s)[3];
  }

  /** A normal transformed by a pure translation is unchanged. */
  lemma TransformNormalIgnoresTranslation(t: Vec3, v: Vec3)
    ensures Vec3TransformNormal(MakeTranslation(t), v) == v
  {
  }

  /** A point transformed by a pure translation is moved by it. */
  lemma TransformTranslatesPoints(t: Vec3, v: Vec3)
    ensures Vec3Transform(MakeTranslation(t), v) == Vec3Add(v, t)
  {
  }

  /** The normal transform is linear in the vector. */
  lemma TransformNormalIsLinear(m: Matrix44, a: Vec3, b: Vec3)
    ensures Vec3TransformNormal(m, Vec3Add(a, b)) == Vec3Add(Vec3TransformNormal(m, a), Vec3TransformNormal(m, b))
  {
    RowDotIsLinear(m[0], a, b);
    RowDotIsLinear(m[1], a, b);
    RowDotIsLinear(m[2], a, b);
  }

  lemma RowDotIsLinear(row: seq<real>, a: Vec3, b: Vec3)
    requires |row| == 4
    ensures RowDot(row, Vec3Add(a, b)) == RowDot(row, a) + RowDot(row, b)
  {
    Distribute(row[0], a.x, b.x);
    Distribute(row[1], a.y, b.y);
    Distribute(row[2], a.z, b.z);
  }

  lemma Distribute(k: real, p: real, q: real)
    ensures k * (p + q) == k * p + k * q
  {
  }

  // ---------------------------------------------------------------------------
  // Argument-style variants: the result is written back into the matrix

  /** scaleMatrix(scale, m): scales m in place, post-multiplying by S(scale). */
  method ScaleMatrix(s: Vec3, m: Matrix44) returns (r: Matrix44)
    ensures r == Multiply(m, MakeScaling(s))
  {
    var rows: seq<seq<real>> := [];
    var i := 0;
    while i < 4
      invariant 0 <= i <= 4
      invariant |rows| == i
      invariant forall k | 0 <= k < i :: rows[k] == ScaleRow(m[k], s)
    {
      rows := rows + [ScaleRow(m[i], s)];
      i := i + 1;
    }
    r := rows;
    assert r == Scale(s, m);
    ScaleIsPostMultiply(s, m);
  }

  /** translateMatrix(v, m): translates m in place, post-multiplying by T(v). */
  method TranslateMatrix(v: Vec3, m: Matrix44) returns (r: Matrix44)
    ensures r == Multiply(m, MakeTranslation(v))
  {
    var rows: seq<seq<real>> := [];
    var i := 0;
    while i < 4
      invariant 0 <= i <= 4
      invariant |rows| == i
      invariant forall k | 0 <= k < i :: rows[k] == TranslateRow(m[k], v)
    {
      rows := rows + [TranslateRow(m[i], v)];
      i := i + 1;
    }
    r := rows;
    assert r == Translate(v, m);
    TranslateIsPostMultiply(v, m);
  }
}

=== FILE: tracking_results.dfy ===
/**
  The per-frame transform accessors getOrigin, getImageTargetResult and
  getModelTargetResult, over the frame's result list.

  The engine's pose inversion is a collaborator whose implementation is not
  part of this model: it is passed in as `inverse`. Poses arrive already
  converted to 4x4 matrices, and the projection matrix is the one the frame's
  rendering primitives give.
*/
module TrackingResults {
  import opened Wrappers
  import opened MathUtils
  import opened AppTypes

  /** The transforms produced for a tracked target. */
  datatype TargetTransforms = TargetTransforms(projection: Matrix44, modelView: Matrix44, scaledModelView: Matrix44)

  /** The transforms produced for the world origin. */
  datatype OriginTransforms = OriginTransforms(projection: Matrix44, modelView: Matrix44)

  /** The view matrix of the frame: the transposed inverse of the device pose. */
  function ViewMatrix(device: DeviceResult, inverse: Matrix44 -> Matrix44): (v: Matrix44)
    ensures Transpose(v) == inverse(device.pose)
  {
    TransposeIsInvolution(inverse(device.pose));
    Transpose(inverse(device.pose))
  }

  /**
    getOrigin: available only when the device result is present, tracked and
    in normal condition.
  */
  function GetOrigin(f: FrameState, inverse: Matrix44 -> Matrix44): (r: Option<OriginTransforms>)
    ensures r.Some? <==> f.device.Some? && f.device.value.status == Tracked && f.device.value.statusInfo == Normal
    ensures r.Some? ==> r.value.projection == f.projection && Transpose(r.value.modelView) == inverse(f.device.value.pose)
  {
    match f.device
    case Some(d) =>
      if d.status == Tracked && d.statusInfo == Normal then Some(OriginTransforms(f.projection, ViewMatrix(d, inverse)))
      else None
    case None => None
  }

  // ---------------------------------------------------------------------------
  // Image targets

  predicate HasImageResult(rs: seq<TrackableResult>) {
    exists i | 0 <= i < |rs| :: rs[i].ImageTargetResult?
  }

  /** The position of the first image-target result, whatever its status. */
  function FirstImageResult(rs: seq<TrackableResult>): (k: Option<nat>)
    ensures k.Some? <==> HasImageResult(rs)
    ensures k.Some? ==>
      && k.value < |rs| && rs[k.value].ImageTargetResult?
      && forall j | 0 <= j < k.value :: !rs[j].ImageTargetResult?
    decreases |rs|
  {
    if |rs| == 0 then None
    else if rs[0].ImageTargetResult? then Some(0)
    else
      match FirstImageResult(rs[1..])
      case None =>
        assert forall i | 1 <= i < |rs| :: rs[i] == rs[1..][i - 1];
        None
      case Some(k) =>
        assert forall j | 1 <= j < k + 1 :: rs[j] == rs[1..][j - 1];
        Some(k + 1)
  }

  /**
    The box an image target is drawn in: its width and height, and the larger
    of the two as depth so that a planar target gets a 3-D extent.
  */
  function ImageBoxSize(t: ImageTarget): (b: Vec3)
    ensures b.x == t.size.x && b.y == t.size.y
    ensures b.z >= b.x && b.z >= b.y && (b.z == b.x || b.z == b.y)
  {
    Vec3(t.size.x, t.size.y, if t.size.x < t.size.y then t.size.y else t.size.x)
  }

  /**
    getImageTargetResult: when image targets are selected, the first
    image-target result in the list gives the transforms; the unit box is
    scaled to the target's size by post-multiplication.
  */
  function GetImageTargetResult(s: Session, f: FrameState, inverse: Matrix44 -> Matrix44): (r: Option<TargetTransforms>)
    requires s.target == IMAGE_TARGET_ID && HasImageResult(f.results) ==> f.device.Some?
    ensures r.Some? <==> s.target == IMAGE_TARGET_ID && HasImageResult(f.results)
    ensures r.Some? ==>
      exists k | 0 <= k < |f.results| ::
        && f.results[k].ImageTargetResult?
        && (forall j | 0 <= j < k :: !f.results[j].ImageTargetResult?)
        && r.value.projection == f.projection
        && r.value.modelView == Multiply(ViewMatrix(f.device.value, inverse), f.results[k].pose)
        && r.value.scaledModelView == Multiply(r.value.modelView, MakeScaling(ImageBoxSize(f.results[k].imageTarget)))
  {
    if s.target != IMAGE_TARGET_ID then None
    else
      match FirstImageResult(f.results)
      case None => None
      case Some(k) =>
        var result := f.results[k];
        var view := ViewMatrix(f.device.value, inverse);
        var modelView := Multiply(view, result.pose);
        ScaleIsPostMultiply(ImageBoxSize(result.imageTarget), modelView);
        Some(TargetTransforms(f.projection, modelView, Scale(ImageBoxSize(result.imageTarget), modelView)))
  }

  /**
    The origin's model-view is the view matrix the image-target transforms
    start from: when both are available, the image target's model-view is
    the origin's model-view times the first image result's pose, and both
    use the frame's projection.
  */
  lemma ImageTargetRelativeToOrigin(s: Session, f: FrameState, inverse: Matrix44 -> Matrix44)
    requires GetOrigin(f, inverse).Some? && s.target == IMAGE_TARGET_ID && HasImageResult(f.results)
    ensures
      var origin := GetOrigin(f, inverse).value;
      var image := GetImageTargetResult(s, f, inverse).value;
      var k := FirstImageResult(f.results).value;
      && image.projection == origin.projection
      && image.modelView == Multiply(origin.modelView, f.results[k].pose)
  {
  }

  // ---------------------------------------------------------------------------
  // Model targets

  /** A model-target result with a pose. */
  predicate IsPosedModelResult(r: TrackableResult) {
    r.ModelTargetResult? && r.status != NoPose
  }

  /** A model-target result without a pose whose target asks for its guide view. */
  predicate IsGuidanceResult(r: TrackableResult) {
    r.ModelTargetResult? && r.status == NoPose && r.statusInfo == NoDetectionRecommendingGuidance
  }

  predicate HasPosedModelResult(rs: seq<TrackableResult>) {
    exists i | 0 <= i < |rs| :: IsPosedModelResult(rs[i])
  }

  /**
    The guide-view candidate after scanning `rs` from `prior`: the target of
    the last guidance result, or `prior` when there is none.
  */
  predicate IsCandidateAfter(rs: seq<TrackableResult>, prior: Option<ModelTarget>, candidate: Option<ModelTarget>) {
    || (candidate == prior && forall i | 0 <= i < |rs| :: !IsGuidanceResult(rs[i]))
    || exists i | 0 <= i < |rs| ::
         && IsGuidanceResult(rs[i])
         && candidate == Some(rs[i].modelTarget)
         && forall j | i < j < |rs| :: !IsGuidanceResult(rs[j])
  }

  /** Where the scan of the result list stops. */
  datatype ModelScan = Posed(index: nat) | Unposed(candidate: Option<ModelTarget>)

  /**
    The loop of getModelTargetResult: each model-target result without a pose
    is skipped, recording its target as the guide-view candidate when it asks
    for guidance; the first one with a pose ends the scan.
  */
  function ScanModelResults(rs: seq<TrackableResult>, candidate: Option<ModelTarget>): (r: ModelScan)
    ensures r.Posed? <==> HasPosedModelResult(rs)
    ensures r.Posed? ==>
      && r.index < |rs| && IsPosedModelResult(rs[r.index])
      && forall j | 0 <= j < r.index :: !IsPosedModelResult(rs[j])
    decreases |rs|
  {
    if |rs| == 0 then Unposed(candidate)
    else if IsPosedModelResult(rs[0]) then Posed(0)
    else
      var next := if IsGuidanceResult(rs[0]) then Some(rs[0].modelTarget) else candidate;
      match ScanModelResults(rs[1..], next)
      case Unposed(c) =>
        assert forall i | 1 <= i < |rs| :: rs[i] == rs[1..][i - 1];
        Unposed(c)
      case Posed(k) =>
        assert forall j | 1 <= j < k + 1 :: rs[j] == rs[1..][j - 1];
        Posed(k + 1)
  }

  /** A scan that finds no pose leaves the last guidance result's target as the candidate. */
  lemma {:induction false} ScanKeepsLastGuidance(rs: seq<TrackableResult>, prior: Option<ModelTarget>)
    requires ScanModelResults(rs, prior).Unposed?
    ensures IsCandidateAfter(rs, prior, ScanModelResults(rs, prior).candidate)
    decreases |rs|
  {
    if |rs| > 0 {
      var next := if IsGuidanceResult(rs[0]) then Some(rs[0].modelTarget) else prior;
      var tail := rs[1..];
      ScanKeepsLastGuidance(tail, next);
      var c := ScanModelResults(rs, prior).candidate;
      assert c == ScanModelResults(tail, next).candidate;
      if exists i | 0 <= i < |tail| :: IsGuidanceResult(tail[i]) && c == Some(tail[i].modelTarget)
                                        && forall j | i < j < |tail| :: !IsGuidanceResult(tail[j]) {
        var i :| 0 <= i < |tail| && IsGuidanceResult(tail[i]) && c == Some(tail[i].modelTarget)
                 && forall j | i < j < |tail| :: !IsGuidanceResult(tail[j]);
        assert rs[i + 1] == tail[i];
        assert forall j | i + 1 < j < |rs| :: rs[j] == tail[j - 1];
      } else {
        assert c == next && forall i | 0 <= i < |tail| :: !IsGuidanceResult(tail[i]);
        assert forall i | 1 <= i < |rs| :: rs[i] == tail[i - 1];
        if IsGuidanceResult(rs[0]) {
          assert IsGuidanceResult(rs[0]) && c == Some(rs[0].modelTarget);
        }
      }
    }
  }

  /**
    The model target's drawing transform: the unit box moved to the centre of
    the target's bounding box, then scaled to the target's size.
  */
  function ModelTransforms(view: Matrix44, projection: Matrix44, result: TrackableResult): (t: TargetTransforms)
    requires result.ModelTargetResult?
    ensures t.projection == projection
    ensures t.modelView == Multiply(view, result.pose)
    ensures t.scaledModelView == Scale(result.modelTarget.size, Translate(result.modelTarget.boundingBoxCenter, t.modelView))
  {
    var modelView := Multiply(view, result.pose);
    var scaleMatrix := MakeScaling(result.modelTarget.size);
    var translateMatrix := MakeTranslation(result.modelTarget.boundingBoxCenter);
    TranslateThenScale(result.modelTarget.boundingBoxCenter, result.modelTarget.size, modelView);
    TargetTransforms(projection, modelView, Multiply(modelView, Multiply(translateMatrix, scaleMatrix)))
  }

  /**
    getModelTargetResult: when model targets are selected, succeeds iff some
    model-target result has a pose; the first such result gives the
    transforms and clears the guide-view candidate. Otherwise the candidate
    becomes the target of the last guidance result scanned, or stays as it
    was; it is not reset at the start of a frame.
  */
  function GetModelTargetResult(s: Session, f: FrameState, inverse: Matrix44 -> Matrix44): (r: (Session, Option<TargetTransforms>))
    requires s.target == MODEL_TARGET_ID && HasPosedModelResult(f.results) ==> f.device.Some?
    ensures r.1.Some? <==> s.target == MODEL_TARGET_ID && HasPosedModelResult(f.results)
    ensures r.1.Some? ==>
      && r.0 == s.(guideViewModelTarget := None)
      && exists k | 0 <= k < |f.results| ::
           && IsPosedModelResult(f.results[k])
           && (forall j | 0 <= j < k :: !IsPosedModelResult(f.results[j]))
           && r.1.value.projection == f.projection
           && r.1.value.modelView == Multiply(ViewMatrix(f.device.value, inverse), f.results[k].pose)
           && r.1.value.scaledModelView == Scale(f.results[k].modelTarget.size,
                Translate(f.results[k].modelTarget.boundingBoxCenter, r.1.value.modelView))
    ensures r.1.None? ==>
      && r.0 == s.(guideViewModelTarget := r.0.guideViewModelTarget)
      && (s.target == MODEL_TARGET_ID ==> IsCandidateAfter(f.results, s.guideViewModelTarget, r.0.guideViewModelTarget))
      && (s.target != MODEL_TARGET_ID ==> r.0 == s)
  {
    if s.target != MODEL_TARGET_ID then (s, None)
    else
      match ScanModelResults(f.results, s.guideViewModelTarget)
      case Unposed(c) =>
        ScanKeepsLastGuidance(f.results, s.guideViewModelTarget);
        (s.(guideViewModelTarget := c), None)
      case Posed(k) =>
        var view := ViewMatrix(f.device.value, inverse);
        (s.(guideViewModelTarget := None), Some(ModelTransforms(view, f.projection, f.results[k])))
  }
}

=== FILE: video_background.dfy ===
/**
  The video-background fit: how large the camera image is drawn so that it
  covers the view while keeping the camera's aspect ratio.

  Sizes are integers. The source compares two float aspect ratios; for
  positive sizes `vw/vh < a/b` is the same as `vw*b < a*vh`, which is the
  comparison used here. `int(a * (b / c))` on positive values is the exact
  quotient truncated, `(a * b) / c`.
*/
module VideoBackground {

  /** The camera stream's native resolution (the engine's VideoMode). */
  datatype VideoMode = VideoMode(width: int, height: int)

  /** The on-screen size the video background is drawn at. */
  datatype FitSize = FitSize(width: int, height: int)

  /** The camera reports a usable resolution. */
  predicate ValidMode(mode: VideoMode) {
    mode.width > 0 && mode.height > 0
  }

  /**
    In portrait the camera image is drawn rotated, so its width runs along the
    view's height. True when the rotated video is relatively wider than the
    view (`aspectRatioVideo < aspectRatioView`).
  */
  predicate PortraitVideoIsWider(viewWidth: int, viewHeight: int, mode: VideoMode) {
    mode.width * viewWidth < viewHeight * mode.height
  }

  /** In landscape: true when the video is relatively taller than the view. */
  predicate LandscapeVideoIsTaller(viewWidth: int, viewHeight: int, mode: VideoMode) {
    mode.width * viewHeight < viewWidth * mode.height
  }

  /**
    configureVideoBackground. The result always covers the view: one side is
    the view's side and the other is at least as long. Its proportions are the
    camera's (rotated in portrait) up to truncation of the computed side.
  */
  function ConfigureVideoBackground(viewWidth: int, viewHeight: int, portrait: bool, mode: VideoMode): (r: FitSize)
    requires viewWidth > 0 && viewHeight > 0 && ValidMode(mode)
    // portrait, rotated video wider than the view: fit the height, crop left and right
    ensures portrait && PortraitVideoIsWider(viewWidth, viewHeight, mode) ==>
      r.height == viewHeight && r.width >= viewWidth
      && r.width * mode.width <= r.height * mode.height < (r.width + 1) * mode.width
    // portrait, otherwise: fit the width, crop top and bottom
    ensures portrait && !PortraitVideoIsWider(viewWidth, viewHeight, mode) ==>
      r.width == viewWidth && r.height >= viewHeight
      && r.height * mode.height <= r.width * mode.width < (r.height + 1) * mode.height
    // landscape, video taller than the view: fit the width, crop top and bottom
    ensures !portrait && LandscapeVideoIsTaller(viewWidth, viewHeight, mode) ==>
      r.width == viewWidth && r.height >= viewHeight
      && r.height * mode.width <= r.width * mode.height < (r.height + 1) * mode.width
    // landscape, otherwise: fit the height, crop left and right
    ensures !portrait && !LandscapeVideoIsTaller(viewWidth, viewHeight, mode) ==>
      r.height == viewHeight && r.width >= viewWidth
      && r.width * mode.height <= r.height * mode.width < (r.width + 1) * mode.height
  {
    if portrait then
      if PortraitVideoIsWider(viewWidth, viewHeight, mode) then
        QuotientCovers(mode.height * viewHeight, mode.width, viewWidth);
        FitSize((mode.height * viewHeight) / mode.width, viewHeight)
      else
        QuotientCovers(mode.width * viewWidth, mode.height, viewHeight);
        FitSize(viewWidth, (mode.width * viewWidth) / mode.height)
    else
      if LandscapeVideoIsTaller(viewWidth, viewHeight, mode) then
        QuotientCovers(mode.height * viewWidth, mode.width, viewHeight);
        FitSize(viewWidth, (mode.height * viewWidth) / mode.width)
      else
        QuotientCovers(mode.width * viewHeight, mode.height, viewWidth);
        FitSize((mode.width * viewHeight) / mode.height, viewHeight)
  }

  /**
    The truncated quotient q = n / d of a positive division brackets n, and
    is at least k whenever k * d <= n.
  */
  lemma QuotientCovers(n: int, d: int, k: int)
    requires n >= 0 && d > 0 && k >= 0
    ensures (n / d) * d <= n < (n / d + 1) * d
    ensures k * d <= n ==> n / d >= k
  {
    var q := n / d;
    assert n == q * d + n % d;
    assert (q + 1) * d == q * d + d;
    if k * d <= n && q < k {
      MultiplyMonotone(q + 1, k, d);
      assert false;
    }
  }

  lemma MultiplyMonotone(a: int, b: int, d: int)
    requires a <= b && d > 0
    ensures a * d <= b * d
  {
    assert b * d - a * d == (b - a) * d;
  }

  /** Whatever the branch, the drawn video never leaves a letterbox. */
  lemma FitCoversView(viewWidth: int, viewHeight: int, portrait: bool, mode: VideoMode)
    requires viewWidth > 0 && viewHeight > 0 && ValidMode(mode)
    ensures var r := ConfigureVideoBackground(viewWidth, viewHeight, portrait, mode);
      r.width >= viewWidth && r.height >= viewHeight
      && (r.width == viewWidth || r.height == viewHeight)
  {
  }

  /** Equal aspect ratios take the `else` branch and draw exactly the view. */
  lemma EqualAspectFitsExactly(viewWidth: int, viewHeight: int, portrait: bool, mode: VideoMode)
    requires viewWidth > 0 && viewHeight > 0 && ValidMode(mode)
    requires portrait ==> mode.width * viewWidth == viewHeight * mode.height
    requires !portrait ==> mode.width * viewHeight == viewWidth * mode.height
    ensures ConfigureVideoBackground(viewWidth, viewHeight, portrait, mode) == FitSize(viewWidth, viewHeight)
  {
    var r := ConfigureVideoBackground(viewWidth, viewHeight, portrait, mode);
    if portrait {
      assert !PortraitVideoIsWider(viewWidth, viewHeight, mode);
      assert (mode.width * viewWidth) / mode.height == viewHeight by {
        DivExact(viewHeight, mode.height, mode.width * viewWidth);
      }
    } else {
      assert !LandscapeVideoIsTaller(viewWidth, viewHeight, mode);
      assert (mode.width * viewHeight) / mode.height == viewWidth by {
        DivExact(viewWidth, mode.height, mode.width * viewHeight);
      }
    }
  }

  lemma DivExact(q: int, d: int, n: int)
    requires d > 0 && q >= 0 && n == q * d
    ensures n / d == q
  {
    QuotientCovers(n, d, q);
    var r := n / d;
    if r > q {
      MultiplyMonotone(q + 1, r, d);
    }
  }

  /**
    A portrait 1080x1920 view with a 640x480 camera: the rotated video is
    wider than the view, so the height is fitted and the sides are cropped.
  */
  lemma PortraitPhoneExample()
    ensures ConfigureVideoBackground(1080, 1920, true, VideoMode(640, 480)) == FitSize(1440, 1920)
  {
  }

  /** A landscape 1920x1080 view with a 640x480 camera fits the width. */
  lemma LandscapePhoneExample()
    ensures ConfigureVideoBackground(1920, 1080, false, VideoMode(640, 480)) == FitSize(1920, 1440)
  {
  }
}

=== FILE: wrappers.dfy ===
/** The optional value used wherever the source holds a nullable pointer. */
module Wrappers {

  datatype Option<+T> = None | Some(value: T)
}
